=== FILE: README.md ===
# vdoTube controllers: a verified state-machine model

This project models the request handlers of the vdoTube video backend as one
sequential state machine over an in-memory document store, and proves what
each handler does to the store and what it reports. The store holds:

- users, indexed by id;
- likes and subscriptions, as sequences of records in natural order;
- playlists, keyed by id;
- tweets.

Every handler is a pure function from a store and a request to a `Step`: an
HTTP status, an optional `data` payload, and the store after the call.

The model covers four parts of the system.

- **Sessions.** The user model covers the schema's lower-casing and trimming
  setters, the pre-save hook that re-hashes only a modified password, and the
  two token generators. The authentication middleware turns a cookie or an
  `Authorization` header into a user. The user controller covers
  registration, login, logout, refresh-token rotation, password change and
  account update.
- **Toggle relations.** Likes (on videos and comments) and subscriptions are
  relations whose records exist or not. A toggle deletes the first matching
  record or creates one.
- **Playlists.** A playlist's `videos` array is kept free of duplicates:
  adding is conditional on absence, and removing pulls every matching entry.
- **Tweets.** Updates and deletes are owner-scoped, and the listing serves a
  fixed first page of the ten newest tweets.

bcrypt and jsonwebtoken are function-valued parameters (`Crypto.Primitives`).
No axioms are added about them:

- A bcrypt comparison is defined as recomputing the key derivation with the
  digest's cost and salt.
- The sign-then-verify law of JWS (RFC 7519, section 7.2) is a ghost predicate,
  `JwtSound`. Only the round-trip lemmas take it as a hypothesis.

The store invariant `Store.Valid` states the following, and every mutating
handler is proved to preserve it:

- usernames and emails are normalised and unique;
- there is at most one like record per (user, target) pair;
- there is at most one subscription per (subscriber, channel) pair;
- no playlist holds the same video twice;
- tweet ids are distinct.

The model is faithful to the code, including places where the code accepts
more than the specification would suggest:

- Registration only rejects a field that is present and blank. An absent field
  passes the check and then makes the document creation fail with 500.
- `updateAccountDetails` does not run the schema's validators. A full name made
  only of spaces is therefore stored as the empty string.
- `updatePlaylist` stores an empty name when the description is truthy.
- `createPlaylist`'s 402 branch cannot be reached.
- `removeVideoFromPlaylist` reports a missing playlist with 402.
- `updateTweet` answers 200 even when no tweet was updated.

## Model

| member | source | states |
|---|---|---|
| `JsText.Trim` | src/controllers/user.controller.js:34-39 | the result is an infix of the input that neither starts nor ends with ECMAScript whitespace, and everything before and after it is whitespace; it is empty exactly when the input is all whitespace |
| `JsText.TrimIdempotent` | src/models/user.models.js:22-26 | trimming an already trimmed full name changes nothing, so the schema setter's output is stable |
| `JsText.NormalizeIdempotent` | src/models/user.models.js:7-21 | the lowercase-and-trim setters applied to a stored username or email give it back unchanged |
| `JsText.NormalizeAfterLower` | src/controllers/user.controller.js:80 | the handler's extra `toLowerCase` on the username makes no difference once the schema setters run |
| `JsText.ToLower` | src/controllers/user.controller.js:80 | `toLowerCase` leaves no upper-case letter, moves no whitespace, and returns a string without upper-case letters unchanged (ASCII letters only, see Left out) |
| `JsText.Normalize` | src/models/user.models.js:7-21 | the lowercase and trim setters store the lower-cased input with only whitespace removed around it; the value is lower-case, trimmed, and empty exactly when the input was blank, so a username that passes the blank check is stored non-empty |
| `JsText.ReplaceFirst` | src/middlewares/auth.middleware.js:10 | `replace` with a string pattern rewrites only the first occurrence, and returns the input when there is none |
| `Crypto.Hash` | src/models/user.models.js:51 | a fresh digest uses cost 10 and the drawn salt, and the hashed password checks against it |
| `Crypto.Verify` | src/middlewares/auth.middleware.js:16 | claims are released only for a token valid under the secret at that time, and they are the token's decoded payload whatever the time |
| `UserModel.Save` | src/models/user.models.js:48-53 | a save changes at most the password; the digest is kept unless a new password was assigned, and an assigned password checks afterwards |
| `UserModel.IsPasswordCorrect` | src/models/user.models.js:56-58 | the check holds exactly when the key derived from the password with the stored cost and salt is the stored value; a digest hashed from the password always checks |
| `UserModel.GenerateAccessToken` | src/models/user.models.js:60-73 | given sound JWT primitives, the token verifies under the access secret to exactly {_id, email, username, fullName} |
| `UserModel.GenerateRefreshToken` | src/models/user.models.js:77-88 | given sound JWT primitives, the token verifies under the separate refresh secret to exactly {_id} |
| `UserModel.View` | src/middlewares/auth.middleware.js:45 | each projection keeps every profile field, and exposes the password digest only for "-refreshToken" and the refresh token only for "-password" |
| `UserModel.ReplaceUserValid` | src/models/user.models.js:7-21 | replacing a user by a well-formed one that clashes with no other user keeps usernames and emails unique and normalised |
| `UserModel.AppendUserValid` | src/models/user.models.js:7-21 | adding a well-formed user that clashes with nobody keeps usernames and emails unique and normalised |
| `UserModel.SameIdentityValid` | src/models/user.models.js:7-45 | changing only optional or secret fields of a user keeps the user collection valid |
| `Relation.Find` | src/controllers/like.controller.js:10-13 | `findOne` returns the index of the first matching record, and none exactly when no record matches |
| `Relation.NoDupIffAtMostOnce` | src/controllers/like.controller.js:10-28 | "no record twice" as positions is the same as "every record counted at most once" |
| `Relation.RemoveFirst` | src/controllers/like.controller.js:17-20 | `deleteOne` removes one copy of the record when present and nothing otherwise |
| `Relation.Toggle` | src/controllers/like.controller.js:10-28 | the toggle reports true exactly when the record was absent, adds or removes exactly one copy, and keeps at-most-one-record-per-pair |
| `Relation.ToggleKeepsNoDup` | src/controllers/like.controller.js:10-28 | a one-copy insertion of an absent record or removal of a present one keeps records unique, and afterwards the record exists exactly when it was absent before |
| `Relation.RemoveFirstAppended` | src/controllers/like.controller.js:17-27 | creating an absent record and deleting it again gives back the same collection |
| `Relation.ToggleTwice` | src/controllers/like.controller.js:10-29 | two toggles report opposite states and restore the collection as a multiset, and exactly when the record was absent |
| `Relation.Filter` | src/controllers/subscription.controller.js:39-40 | `find` with a filter returns records of the collection that satisfy it, every one that does, and each as many times as it occurs in the collection |
| `Relation.FilterCountsPositions` | src/controllers/subscription.controller.js:39-40 | the length of a `find` result is the number of positions in the collection whose record matches the filter |
| `Relation.FilterAppend` | src/controllers/subscription.controller.js:39-40 | creating a record raises the count of matching records by one exactly when it matches |
| `Relation.FilterRemoveFirst` | src/controllers/subscription.controller.js:39-40 | deleting a record lowers the count of matching records by one exactly when it matches |
| `Relation.ToggleCount` | src/controllers/subscription.controller.js:14-23 | a toggle moves the count of records satisfying a filter by one in the reported direction if the record satisfies it, and leaves it otherwise |
| `AuthGate.Authenticate` | src/middlewares/auth.middleware.js:6-33 | a missing, empty, unverifiable or dangling token gives 401 with no user; success means the token verified and names an existing user, whose projected view is handed on |
| `AuthGate.VerifyJwt` | src/middlewares/auth.middleware.js:18 | `verifyJWT` hands on a user with neither password digest nor refresh token, and fails only with 401 |
| `AuthGate.VerifyJwtForUpdate` | src/middlewares/auth.middleware.js:35-59 | the update gate keeps the user's stored digest for the old-password check and strips the refresh token |
| `AuthGate.CookieFirst` | src/middlewares/auth.middleware.js:10 | a non-empty `accessToken` cookie wins over any header |
| `AuthGate.BearerHeader` | src/middlewares/auth.middleware.js:10 | without a usable cookie, `Authorization: Bearer t` yields `t` |
| `AuthGate.ExtractToken` | src/middlewares/auth.middleware.js:10 | a truthy cookie is the token; otherwise there is a token exactly when there is a header, and its length is the header's, or that less one `"Bearer "` (the content law is `AuthGate.LooseBearer`) |
| `AuthGate.LooseBearer` | src/middlewares/auth.middleware.js:10 | for every header: one without `"Bearer "` passes through whole, and one whose first `"Bearer "` follows a prefix `x` yields `x` followed by the rest, so the scheme need not lead the header |
| `UserController.WithRefreshToken` | src/controllers/user.controller.js:17-18 | the user's single stored refresh token is replaced, with no append; the user's other fields, every other user and the other collections are unchanged |
| `UserController.WithRefreshTokenValid` | src/controllers/user.controller.js:17-18 | storing a refresh token keeps the store invariant |
| `UserController.GenerateTokens` | src/controllers/user.controller.js:7-25 | for an existing user both tokens are issued, the new refresh token overwrites the stored one and the digest is untouched; a missing user gives 500 with no change |
| `UserController.FindByIdentity` | src/controllers/user.controller.js:42-44 | the `$or` lookup returns a user whose normalised username or email matches a present field, and none exactly when no user does |
| `UserController.Register` | src/controllers/user.controller.js:28-101 | 400 for a present blank field and 409 for an existing username or email; then 400 for a non-multipart body or a failed upload, and 500 for a multipart body without an avatar file or for an uploaded avatar with a missing field or empty URL; no failure creates a user; 201 exactly when all fields and an uploaded avatar URL are present and the identity is new, appending one normalised user whose password checks, with the cover image URL or "", an empty watch history and no refresh token |
| `UserController.RegisterKeepsValid` | src/controllers/user.controller.js:75-82 | the created user is well-formed and clashes with no existing user, so the store stays valid |
| `UserController.Login` | src/controllers/user.controller.js:103-153 | 400 with no identifier, 404 when no user matches, 401 on a wrong password, none of which touch the store; success exactly on a correct password, rotating that user's refresh token |
| `UserController.Presented` | src/controllers/user.controller.js:186 | the cookie's token when it is truthy, else the body's; a token is presented exactly when one of the two is truthy |
| `UserController.LogOut` | src/controllers/user.controller.js:156-181 | always 200; the user's stored refresh token is unset and nothing else changes |
| `UserController.RefreshAccessToken` | src/controllers/user.controller.js:184-221 | 200 exactly when a presented token verifies, names an existing user and equals that user's stored token; then fresh access and refresh tokens are returned and the stored token is overwritten; every other case is 401 with the store unchanged |
| `UserController.ChangeCurrentPassword` | src/controllers/user.controller.js:226-250 | 400 with the digest unchanged when a field is missing or the old password is wrong; otherwise only the password changes, and the new password checks |
| `UserController.UpdateAccountDetails` | src/controllers/user.controller.js:266-294 | 400 unless both fields are truthy, 404 for a missing user, and 500 when another user holds the normalised email, all with no change; otherwise the trimmed full name and normalised email are set and the answer hides the password |
| `SessionLaws.ReplayAfterRotation` | src/controllers/user.controller.js:200-209 | after a refresh that issued a different token, replaying the old token at any later time is refused with 401 and changes nothing |
| `SessionLaws.LogoutRevokes` | src/controllers/user.controller.js:158-164 | after logout no refresh succeeds for the logged-out user, whatever token is presented |
| `SessionLaws.LoginThenAuthenticate` | src/controllers/user.controller.js:128-147 | the access token a login returns passes the gate at once, from the cookie or a Bearer header, and resolves to the user who logged in |
| `SessionLaws.LoginThenRefresh` | src/controllers/user.controller.js:184-209 | the refresh token a login returns is accepted at once and rotated; once rotated to a different token, it is refused |
| `LikeController.ToggleLike` | src/controllers/like.controller.js:10-28 | the like toggle reports `liked` as the record's former absence, moves only that record's count by one, and keeps the store valid |
| `LikeController.ToggleVideoLike` | src/controllers/like.controller.js:4-35 | `liked: true` exactly when the (video, user) record was absent; exactly one copy of it is created or deleted, and every other video like and every comment like is untouched; afterwards it exists exactly when reported |
| `LikeController.ToggleCommentLike` | src/controllers/like.controller.js:37-68 | the same law keyed on (comment, user): exactly one copy of that record created or deleted, every other comment like and every video like as it was |
| `LikeController.IsVideoLiked` | src/controllers/like.controller.js:93-106 | always 200 with `liked` equal to the existence of the (video, user) record, and no store change |
| `LikeController.IsCommentLiked` | src/controllers/like.controller.js:108-124 | always 200 with `liked` equal to the existence of the (comment, user) record, and no store change |
| `LikeController.LikedVideos` | src/controllers/like.controller.js:74-87 | every result is an existing video the user has a like record for, and every live like of the user yields its video |
| `LikeController.GetLikedVideos` | src/controllers/like.controller.js:71-90 | 200 with one entry per like of the user whose video still exists, each the liked video joined with its stored document, and every such video present; dangling and comment likes are dropped |
| `LikeController.LikedVideosCount` | src/controllers/like.controller.js:86-87 | the number of liked videos equals the number of the user's likes whose video survives the lookup |
| `LikeController.ToggleThenRead` | src/controllers/like.controller.js:93-106 | after a toggle the check reports the toggled state, and an existing video is listed among the liked videos exactly when the toggle said `liked: true` |
| `LikeController.ToggleVideoLikeTwice` | src/controllers/like.controller.js:10-29 | two toggles report opposite states and restore the likes, exactly when the first one created the record |
| `LikeController.ToggleVideoLikeCount` | src/controllers/like.controller.js:10-28 | a video's like count moves by one in the reported direction, and other videos' counts stay |
| `SubscriptionController.ToggleSubscription` | src/controllers/subscription.controller.js:8-29 | `subscribed: true` exactly when the record was absent; exactly one record is added or removed and no other subscription changes |
| `SubscriptionController.ChannelSubscribers` | src/controllers/subscription.controller.js:32-43 | the subscribers are exactly the channel's records, each as often as stored, and `subscribersCount` is the number of stored records whose channel is the given one |
| `SubscriptionController.SubscribedChannels` | src/controllers/subscription.controller.js:46-55 | the channels are exactly the subscriber's records, each as often as stored, and `channelsCount` is the number of stored records whose subscriber is the given one |
| `SubscriptionController.IsSubscribed` | src/controllers/subscription.controller.js:57-72 | always 200 with `subscribed` equal to the existence of the record, and no store change |
| `SubscriptionController.ToggleSubscriptionCounts` | src/controllers/subscription.controller.js:39-52 | a toggle moves the channel's subscriber count and the subscriber's channel count by one in the reported direction, and other channels' counts stay |
| `SubscriptionController.ToggleSubscriptionTwice` | src/controllers/subscription.controller.js:14-23 | the check follows the toggle; a second toggle reports the opposite state, restores the subscriptions as a multiset with nothing else changed, gives back the subscriber count, and restores the store exactly when the first one subscribed |
| `PlaylistController.CreatePlaylist` | src/controllers/playlist.controller.js:6-27 | 401 with no change unless name and description are truthy; otherwise one empty playlist owned by the requester, under a fresh id |
| `PlaylistController.GetUserPlaylists` | src/controllers/playlist.controller.js:29-44 | exactly the playlists owned by the user, unchanged, or 404 exactly when there are none |
| `PlaylistController.GetPlaylistById` | src/controllers/playlist.controller.js:46-56 | the playlist with that id, or 404 exactly when there is none |
| `PlaylistController.CreateThenList` | src/controllers/playlist.controller.js:15-20 | a created playlist is listed for its owner and can be fetched by its id |
| `PlaylistController.AddVideoToPlaylist` | src/controllers/playlist.controller.js:59-81 | 404 for a missing video and 400 for a missing playlist or a video already held, both with no change; otherwise exactly one {video, thumbnail} entry is appended and no other playlist changes |
| `PlaylistController.AppendKeepsNoDupVideos` | src/controllers/playlist.controller.js:69-73 | appending a video the playlist does not hold keeps its videos distinct |
| `PlaylistController.PullSpec` | src/controllers/playlist.controller.js:127-130 | `$pull` leaves no entry with the video, keeps every other entry, adds nothing, changes nothing when the video is absent, and keeps videos distinct |
| `PlaylistController.Pull` | src/controllers/playlist.controller.js:128 | `$pull` of `{video}` never lengthens the array (its full law is `PullSpec`) |
| `PlaylistController.PullNoDup` | src/controllers/playlist.controller.js:127-130 | pulling a video from a playlist without duplicate videos leaves one without duplicates |
| `PlaylistController.PullAppend` | src/controllers/playlist.controller.js:127-130 | `$pull` distributes over concatenation, so the surviving entries keep their order |
| `PlaylistController.RemoveVideoFromPlaylist` | src/controllers/playlist.controller.js:120-137 | 404 for a missing video and 402 for a missing playlist, both with no change; otherwise every entry with the video is pulled and no other playlist changes |
| `PlaylistController.AddThenRemove` | src/controllers/playlist.controller.js:69-130 | a successful add followed by a remove of the same video gives back the original store |
| `PlaylistController.AddTwice` | src/controllers/playlist.controller.js:69-78 | adding the same video a second time answers 400 and changes nothing |
| `PlaylistController.DeletePlaylist` | src/controllers/playlist.controller.js:139-149 | with no owner check, the playlist is removed and returned, or 402 with no change when absent; other playlists stay |
| `PlaylistController.DeleteThenList` | src/controllers/playlist.controller.js:142-146 | a deleted playlist is in no listing, and deleting it again answers 402 |
| `PlaylistController.SetField` | src/controllers/playlist.controller.js:158-163 | a `$set` key keeps the old value when the body field is absent, stores `null` for `null`, and stores a given string as it is |
| `PlaylistController.UpdatePlaylist` | src/controllers/playlist.controller.js:151-169 | 401 when neither field is truthy, 400 when the playlist is absent; otherwise an absent field keeps its value, a `null` field is stored as `null` and a string is stored as given, and owner, category and videos are kept |
| `TweetController.CreateTweet` | src/controllers/tweet.controller.js:8-17 | one tweet is appended under a fresh id, with the given content and the requester as owner |
| `TweetController.GetUserTweets` | src/controllers/tweet.controller.js:19-35 | exactly the tweets owned by the user, each as often as stored, or 404 exactly when there are none |
| `TweetController.OwnedMatch` | src/controllers/tweet.controller.js:45-46 | the `{_id, owner}` filter finds a tweet with that id owned by the requester, and none exactly when there is no such tweet |
| `TweetController.UpdateTweet` | src/controllers/tweet.controller.js:37-52 | always 200; empty text or no owned match changes nothing and returns no data; otherwise only that tweet's content changes |
| `TweetController.Without` | src/controllers/tweet.controller.js:57 | `findOneAndDelete` drops exactly the matched tweet and keeps the rest in order |
| `TweetController.WithoutValid` | src/controllers/tweet.controller.js:57 | after the delete the tweet ids stay distinct and none equals the deleted id |
| `TweetController.DeleteTweetAsWritten` | src/controllers/tweet.controller.js:54-63 | as written: 404 with no change for a non-owner; for the owner the tweet is deleted but the reply is 500 |
| `TweetController.DeleteReportsFailureAfterDeleting` | src/controllers/tweet.controller.js:62 | whenever the requester owns the tweet, the code reports failure although the tweet is gone |
| `TweetController.DeleteTweet` | src/controllers/tweet.controller.js:54-63 | corrected: 200 with the deleted tweet exactly when the requester owns it, and only it is removed; otherwise 404 with no change |
| `TweetController.DeleteSameEffect` | src/controllers/tweet.controller.js:57-60 | the corrected delete does to the store exactly what the written one does |
| `TweetController.NonOwnerChangesNothing` | src/controllers/tweet.controller.js:45-60 | when the tweet belongs to someone else, the requester's update and delete leave the store exactly as it was |
| `TweetController.CreateThenDelete` | src/controllers/tweet.controller.js:11-14 | a created tweet is listed for its owner, and the owner's delete gives back the store as it was before, apart from the id counter |
| `TweetController.InsertByRecency` | src/controllers/tweet.controller.js:70 | inserting into a newest-first sequence keeps it newest-first and adds exactly that tweet |
| `TweetController.SortByRecency` | src/controllers/tweet.controller.js:69-70 | `sort({createdAt: -1})` yields a newest-first permutation of the tweets |
| `TweetController.FirstOfSorted` | src/controllers/tweet.controller.js:69-72 | the first k of a sorted permutation are newest-first and drawn from the tweets, and no left-out tweet is newer than the last one kept |
| `TweetController.GetAllTweets` | src/controllers/tweet.controller.js:65-79 | 404 exactly when there are no tweets; otherwise min(10, n) tweets newest first, drawn from the store, with no omitted tweet newer than the last one shown |

## Left out

- Database and network failures are not modelled: the `catch` branches that answer 500 on a failed query, the `asyncHandler` wrapper and Express's error handler. The exceptions the model does represent are the ones the code's own inputs trigger, such as a missing required field or the undeclared variable in `deleteTweet`.
- Concurrency is not modelled: the model is sequential, so the check-then-act race in the like toggle and concurrent refresh rotation are out of scope.
- Request body fields other than `updatePlaylist`'s are modelled as strings or absent. A JSON `null` or a non-string value, such as `username: 5`, cannot be expressed. In the source such a value makes `field?.trim()` in `registerUser` throw, which answers 500.
- Cookie options, response messages and JSON envelopes are reduced to a status and a `data` payload.
- bcrypt and jsonwebtoken are parameters. Their internal behaviour is left out, and so are token expiry formats beyond the `valid(token, secret, now)` flag.
- The clock and bcrypt's random salt are parameters (`now`, `salt`).
- Media uploads in `registerUser` are parameters. The avatar is what the upload middleware left: no files object, a files object without an avatar, or the URL the media store returned for the file (`None` on a failed upload). The cover image is its URL or `None`.
- `JsText.ToLower`: `toLowerCase` is modelled for the ASCII letters A to Z only. Other upper-case letters, such as "Ä", are left unchanged, while JavaScript and the Mongoose `lowercase` setter lower-case all of Unicode. Unicode case mapping tables are out of scope. The gap carries over to `JsText.Normalize` and to the members below.
- `UserController.FindByIdentity`: two usernames or emails that differ only in a non-ASCII letter's case are different keys here, while the source folds them together. The lookup therefore misses a user the source finds, for example "ÄLICE" against a stored "älice".
- `UserController.Register`: for the same reason it answers 201 where the source answers 409 for an identity that differs from a stored one only in non-ASCII case.
- `UserController.Login`: for the same reason it answers 404 where the source finds the user by a non-ASCII case variant.
- `UserController.UpdateAccountDetails`: the duplicate-email check compares ASCII-lowercased emails. A non-ASCII case variant of another user's email is accepted with 200, where the unique index makes the source answer 500.
- The avatar and cover update handlers are left out because they are media-store I/O.
- `getUserChannelProfile` and `getWatchHistory` are left out because they are aggregation pipelines over collections this model does not hold.
- `getCurrentUser` is left out: it only echoes the user the gate resolved, which `AuthGate.Authenticate` already states.
- Malformed ObjectIds are not modelled: ids are natural numbers, so a cast error (500) cannot occur.
- Mongoose is assumed to run the schema setters (lowercase, trim) on query filters and `$set` updates. It is also assumed to strip `undefined` keys from `$set` and to store a `null` value as `null`.
- A query filter on an absent field is taken to match no user, because both identity fields are required.
- `PlaylistController.GetUserPlaylists` returns the playlists as a map from id to playlist. The natural order of `find`'s result is not kept.
- `TweetController.SortByRecency` puts tweets with equal `createdAt` in an order MongoDB does not fix. The contract states only the newest-first order and the permutation.
- `TweetController.CreateTweet` takes the content as a present string. The tweet schema is not part of this model, so the handling of a missing `tweet` field is not modelled.
- `UserController.ChangeCurrentPassword` requires the user to exist. `verifyJwtForUpdatingUserDetails` guarantees this (`AuthGate.Authenticate` proves it of every success).
- Timestamps other than a tweet's `createdAt` are not kept, and a user's watch history is created empty and never changed.
- Tweet likes are left out: the like routes import handlers that the like controller does not define, so there is nothing to model.
- `next()` being called once is represented by the gate returning the user; the downstream handler is a separate function call.

## Findings

| source | as written | input that shows it | evidently intended | confidence | as-written member | corrected member |
|---|---|---|---|---|---|---|
| src/controllers/tweet.controller.js:62 | after `findOneAndDelete` succeeds, the reply sends `data: response`, a variable that is never declared, so the handler throws after the tweet is already deleted and the client receives a 500 | any `deleteTweet` by the owner of an existing tweet | answer 200 with the deleted tweet (`data: deleted`) | not executed | `TweetController.DeleteTweetAsWritten`, `TweetController.DeleteReportsFailureAfterDeleting` | `TweetController.DeleteTweet` |

=== FILE: auth_gate.dfy ===
/**
 * The authentication middleware (src/middlewares/auth.middleware.js):
 * `verifyJWT` and `verifyJwtForUpdatingUserDetails`. Both take the access
 * token from the `accessToken` cookie or from the `Authorization` header,
 * verify it with the access secret, load the user named by its `_id`, and
 * either hand the projected user to the next handler or answer 401. They
 * differ only in the projection.
 */
module AuthGate {
  import opened Wrappers
  import opened JsText
  import opened Crypto
  import opened UserModel
  import opened Store

  /** What the gate reads from a request: the `accessToken` cookie and the `Authorization` header. */
  datatype Request = Request(cookie: Option<string>, authorization: Option<string>)

  /** The bearer scheme of section 2.1 of RFC 6750, as the code matches it. */
  const Bearer: string := "Bearer "

  /**
   * The cookie when it is truthy; otherwise the header with its first
   * occurrence of `"Bearer "` removed, wherever that occurrence is.
   */
  function ExtractToken(req: Request): (r: Option<string>)
    ensures Truthy(req.cookie) ==> r == req.cookie
    ensures !Truthy(req.cookie) ==> (r.None? <==> req.authorization.None?)
    ensures !Truthy(req.cookie) && req.authorization.Some? ==>
      var h := req.authorization.value;
      |r.value| == |h| || |r.value| + |Bearer| == |h|
  {
    if Truthy(req.cookie) then req.cookie
    else match req.authorization
      case None => None
      case Some(h) => Some(ReplaceFirst(h, Bearer, ""))
  }

  /** `verifyJWT` (projection `NoSecrets`) and the update variant (projection `NoRefreshToken`). */
  function Authenticate(env: Env, s: Store, req: Request, proj: Projection, now: nat): (r: Reply<UserView>)
    ensures r.status == Ok || r.status == Unauthorized
    ensures r.status == Ok <==> r.data.Some?
    ensures !Truthy(ExtractToken(req)) ==> r.status == Unauthorized
    ensures r.data.Some? ==>
      var v := r.data.value;
      && Verify(env.prims, ExtractToken(req).value, env.access.secret, now).Some?
      && Verify(env.prims, ExtractToken(req).value, env.access.secret, now).value.id == v.id
      && v.id < |s.users|
      && v == View(v.id, s.users[v.id], proj)
    ensures Truthy(ExtractToken(req)) ==>
      match Verify(env.prims, ExtractToken(req).value, env.access.secret, now)
      case None => r.status == Unauthorized
      case Some(c) => r.status == Ok <==> c.id < |s.users|
  {
    var token := ExtractToken(req);
    if !Truthy(token) then Reply(Unauthorized, None)
    else match Verify(env.prims, token.value, env.access.secret, now)
      case None => Reply(Unauthorized, None)
      case Some(claims) =>
        if claims.id < |s.users| then Reply(Ok, Some(View(claims.id, s.users[claims.id], proj)))
        else Reply(Unauthorized, None)
  }

  /** `verifyJWT`: the handler never sees the password digest nor the refresh token. */
  function VerifyJwt(env: Env, s: Store, req: Request, now: nat): (r: Reply<UserView>)
    ensures r.data.Some? ==> r.data.value.password.None? && r.data.value.refreshToken.None?
    ensures r.status == Ok || r.status == Unauthorized
  {
    Authenticate(env, s, req, NoSecrets, now)
  }

  /**
   * `verifyJwtForUpdatingUserDetails`: the password digest is kept, for the
   * old-password check, and the refresh token is stripped.
   */
  function VerifyJwtForUpdate(env: Env, s: Store, req: Request, now: nat): (r: Reply<UserView>)
    ensures r.data.Some? ==> r.data.value.id < |s.users|
    ensures r.data.Some? ==> r.data.value.password == Some(s.users[r.data.value.id].password)
    ensures r.data.Some? ==> r.data.value.refreshToken.None?
    ensures r.status == Ok || r.status == Unauthorized
  {
    Authenticate(env, s, req, NoRefreshToken, now)
  }

  /** A truthy cookie wins over any header. */
  lemma CookieFirst(cookie: string, header: Option<string>)
    requires cookie != ""
    ensures ExtractToken(Request(Some(cookie), header)) == Some(cookie)
  {
  }

  /** Without a cookie, `Authorization: Bearer <t>` yields `t`. */
  lemma BearerHeader(t: string)
    ensures ExtractToken(Request(None, Some(Bearer + t))) == Some(t)
    ensures ExtractToken(Request(Some(""), Some(Bearer + t))) == Some(t)
  {
    RemovePrefix(Bearer, t);
  }

  /**
   * The match is looser than the RFC: a header without the scheme passes
   * through whole, and the scheme need not lead the header. Whatever precedes
   * its first occurrence is kept as part of the token.
   */
  lemma LooseBearer(h: string, x: string, t: string)
    ensures (forall j :: 0 <= j <= |h| ==> !OccursAt(h, Bearer, j)) ==>
      ExtractToken(Request(None, Some(h))) == Some(h)
    ensures (forall j :: 0 <= j < |x| ==> !OccursAt(x + Bearer + t, Bearer, j)) ==>
      ExtractToken(Request(None, Some(x + Bearer + t))) == Some(x + t)
  {
    if forall j :: 0 <= j < |x| ==> !OccursAt(x + Bearer + t, Bearer, j) {
      BearerAfter(x, t);
    }
  }

  lemma BearerAfter(x: string, t: string)
    requires forall j :: 0 <= j < |x| ==> !OccursAt(x + Bearer + t, Bearer, j)
    ensures ReplaceFirst(x + Bearer + t, Bearer, "") == x + t
  {
    var g := x + Bearer + t;
    assert g[|x|..|x| + |Bearer|] == Bearer;
    assert OccursAt(g, Bearer, |x|);
    assert g[..|x|] == x && g[|x| + |Bearer|..] == t;
    assert g[..|x|] + "" + g[|x| + |Bearer|..] == x + t;
  }

}

=== FILE: crypto.dfy ===
/**
 * The two foreign libraries the user model relies on, bcrypt and
 * jsonwebtoken, as uninterpreted functions supplied by the caller. Nothing
 * about them is assumed except what their definitions below state: a
 * bcrypt comparison recomputes the key-derivation function with the salt and
 * cost stored in the digest, and `JwtSound` (the JWS verify-after-sign law of
 * RFC 7519 section 7.2) is a hypothesis that only the lemmas needing it take.
 */
module Crypto {
  import opened Wrappers

  /** The cost factor the pre-save hook passes to `bcrypt.hash`. */
  const SaltRounds: nat := 10

  /** A bcrypt hash string, split into its cost, salt and derived value. */
  datatype Digest = Digest(cost: nat, salt: string, value: string)

  /** Signing material: `*_TOKEN_SECRET` and `*_TOKEN_EXPIRY` from the environment. */
  datatype Key = Key(secret: string, expiresIn: string)

  /** JWT payloads: the access token carries the profile, the refresh token only the id. */
  datatype Claims =
    | AccessClaims(id: nat, email: string, username: string, fullName: string)
    | RefreshClaims(id: nat)

  /**
   * `kdf(cost, salt, password)` is bcrypt's key derivation; `sign(claims, key, now)`
   * is `jwt.sign` at time `now`; `decode(token)` reads the payload of a compact
   * token (`None` when it is malformed); `valid(token, secret, now)` holds when
   * the signature checks against `secret` and the token has not expired at `now`.
   */
  datatype Primitives = Primitives(
    kdf: (nat, string, string) -> string,
    sign: (Claims, Key, nat) -> string,
    decode: string -> Option<Claims>,
    valid: (string, string, nat) -> bool)

  /** The process environment the controllers read. */
  datatype Env = Env(prims: Primitives, access: Key, refresh: Key)

  /** `bcrypt.compare(password, digest)`. */
  predicate Compare(p: Primitives, password: string, d: Digest) {
    p.kdf(d.cost, d.salt, password) == d.value
  }

  /** `bcrypt.hash(password, SaltRounds)` with a freshly drawn `salt`. */
  function Hash(p: Primitives, password: string, salt: string): (d: Digest)
    ensures Compare(p, password, d)
    ensures d.cost == SaltRounds && d.salt == salt
  {
    Digest(SaltRounds, salt, p.kdf(SaltRounds, salt, password))
  }

  /**
   * `jwt.verify(token, secret)` at time `now`: the decoded claims, or `None`
   * where the library throws. The claims do not depend on the time; only
   * whether they are released does.
   */
  function Verify(p: Primitives, token: string, secret: string, now: nat): (r: Option<Claims>)
    ensures r.Some? ==> r == p.decode(token)
    ensures r.None? <==> !p.valid(token, secret, now) || p.decode(token).None?
  {
    if p.valid(token, secret, now) then p.decode(token) else None
  }

  /**
   * A token issued at `t` is a non-empty compact serialisation that decodes to
   * the claims it was signed with and verifies under the signing secret at `t`.
   */
  ghost predicate JwtSound(p: Primitives) {
    forall c: Claims, k: Key, t: nat ::
      var token := p.sign(c, k, t);
      token != "" && p.decode(token) == Some(c) && p.valid(token, k.secret, t)
  }
}

=== FILE: js_text.dfy ===
/**
 * The JavaScript string operations the controllers and the schema apply to
 * request fields: `String.prototype.trim`, `toLowerCase`, `replace` with a
 * string pattern (first occurrence only), and truthiness of an optional
 * string. Strings are sequences of Unicode scalar values.
 */
module JsText {
  import opened Wrappers

  /** A string field is truthy when it is present and not the empty string. */
  predicate Truthy(f: Option<string>) {
    f.Some? && f.value != ""
  }

  /** The ECMAScript WhiteSpace and LineTerminator code points, which `trim` strips. */
  predicate IsWhitespace(c: char) {
    || c == '\t' || c == '\n' || c == '\U{000B}' || c == '\U{000C}' || c == '\r'
    || c == ' ' || c == '\U{00A0}' || c == '\U{1680}'
    || ('\U{2000}' <= c <= '\U{200A}')
    || c == '\U{2028}' || c == '\U{2029}' || c == '\U{202F}' || c == '\U{205F}'
    || c == '\U{3000}' || c == '\U{FEFF}'
  }

  predicate AllWhitespace(s: string) {
    forall k :: 0 <= k < |s| ==> IsWhitespace(s[k])
  }

  /** Number of whitespace characters at the start of `s`. */
  function LeadingBlank(s: string): (n: nat)
    ensures n <= |s|
    ensures forall k :: 0 <= k < n ==> IsWhitespace(s[k])
    ensures n == |s| || !IsWhitespace(s[n])
  {
    if |s| > 0 && IsWhitespace(s[0]) then 1 + LeadingBlank(s[1..]) else 0
  }

  /** Number of whitespace characters at the end of `s`. */
  function TrailingBlank(s: string): (n: nat)
    ensures n <= |s|
    ensures forall k :: |s| - n <= k < |s| ==> IsWhitespace(s[k])
    ensures n == |s| || !IsWhitespace(s[|s| - n - 1])
  {
    if |s| > 0 && IsWhitespace(s[|s| - 1]) then 1 + TrailingBlank(s[..|s| - 1]) else 0
  }

  /** `s.trim()`: the longest infix of `s` that neither starts nor ends with whitespace. */
  function Trim(s: string): (r: string)
    ensures |r| <= |s|
    ensures r == [] || (!IsWhitespace(r[0]) && !IsWhitespace(r[|r| - 1]))
    ensures r == [] <==> AllWhitespace(s)
    ensures exists i: nat :: OccursAt(s, r, i) && AllWhitespace(s[..i]) && AllWhitespace(s[i + |r|..])
  {
    var a := LeadingBlank(s);
    var t := s[a..];
    var b := TrailingBlank(t);
    var r := t[..|t| - b];
    assert s[a..a + |r|] == r;
    assert OccursAt(s, r, a);
    assert AllWhitespace(s[..a]);
    assert AllWhitespace(s[a + |r|..]) by {
      assert s[a + |r|..] == t[|t| - b..];
    }
    r
  }

  /** Trimming a string that is already trimmed leaves it as it is. */
  lemma TrimFixpoint(s: string)
    requires s == [] || (!IsWhitespace(s[0]) && !IsWhitespace(s[|s| - 1]))
    ensures Trim(s) == s
  {
    assert LeadingBlank(s) == 0;
    assert TrailingBlank(s) == 0;
  }

  lemma TrimIdempotent(s: string)
    ensures Trim(Trim(s)) == Trim(s)
  {
    TrimFixpoint(Trim(s));
  }

  /** `toLowerCase` on one character; only ASCII letters are mapped. */
  function LowerChar(c: char): (d: char)
    ensures !('A' <= d <= 'Z')
    ensures IsWhitespace(d) <==> IsWhitespace(c)
    ensures !('A' <= c <= 'Z') ==> d == c
  {
    if 'A' <= c <= 'Z' then (c as int - 'A' as int + 'a' as int) as char else c
  }

  /** `s.toLowerCase()`: no upper-case letter is left, and whitespace stays where it was. */
  function ToLower(s: string): (r: string)
    ensures |r| == |s|
    ensures forall k :: 0 <= k < |s| ==> r[k] == LowerChar(s[k])
    ensures NoUpper(r)
    ensures forall k :: 0 <= k < |s| ==> (IsWhitespace(r[k]) <==> IsWhitespace(s[k]))
    ensures NoUpper(s) ==> r == s
  {
    seq(|s|, k requires 0 <= k < |s| => LowerChar(s[k]))
  }

  predicate NoUpper(s: string) {
    forall k :: 0 <= k < |s| ==> !('A' <= s[k] <= 'Z')
  }

  /**
   * The normalisation the user schema applies to `username` and `email`
   * (`lowercase: true, trim: true`): the lower-cased input with its
   * surrounding whitespace removed. The result is lower-case, trimmed, and
   * empty exactly when the input was blank.
   */
  function Normalize(s: string): (r: string)
    ensures exists i: nat :: StrippedAt(s, ToLower(s), r, i)
    ensures NoUpper(r)
    ensures Trim(r) == r
    ensures r == "" <==> Trim(s) == ""
  {
    TrimLowerShape(s);
    TrimLowerMargins(s);
    Trim(ToLower(s))
  }

  lemma TrimLowerShape(s: string)
    ensures var r := Trim(ToLower(s));
      NoUpper(r) && Trim(r) == r && (r == "" <==> Trim(s) == "")
  {
    var l := ToLower(s);
    var r := Trim(l);
    var i: nat :| OccursAt(l, r, i);
    InfixNoUpper(l, r, i);
    TrimFixpoint(r);
    assert AllWhitespace(l) <==> AllWhitespace(s);
  }

  /**
   * `r` stands at index `i` of `t` (here `s` lower-cased), and the
   * characters of `s` before and after that stretch are whitespace.
   */
  predicate StrippedAt(s: string, t: string, r: string, i: nat) {
    OccursAt(t, r, i) && i + |r| <= |s| && AllWhitespace(s[..i]) && AllWhitespace(s[i + |r|..])
  }

  lemma TrimLowerMargins(s: string)
    ensures exists i: nat :: StrippedAt(s, ToLower(s), Trim(ToLower(s)), i)
  {
    var l := ToLower(s);
    var r := Trim(l);
    var i: nat :| OccursAt(l, r, i) && AllWhitespace(l[..i]) && AllWhitespace(l[i + |r|..]);
    LowerKeepsMargins(s, i, i + |r|);
    assert StrippedAt(s, l, r, i);
  }

  /** A stretch of `s` is whitespace exactly when the same stretch of `ToLower(s)` is. */
  lemma LowerKeepsMargins(s: string, i: nat, j: nat)
    requires i <= j <= |s|
    requires AllWhitespace(ToLower(s)[..i]) && AllWhitespace(ToLower(s)[j..])
    ensures AllWhitespace(s[..i]) && AllWhitespace(s[j..])
  {
    var l := ToLower(s);
    forall k | 0 <= k < i ensures IsWhitespace(s[..i][k]) {
      assert l[..i][k] == l[k];
    }
    forall k | 0 <= k < |s| - j ensures IsWhitespace(s[j..][k]) {
      assert l[j..][k] == l[j + k];
    }
  }

  lemma InfixNoUpper(l: string, r: string, i: nat)
    requires NoUpper(l) && OccursAt(l, r, i)
    ensures NoUpper(r)
  {
    forall k | 0 <= k < |r|
      ensures !('A' <= r[k] <= 'Z')
    {
      assert r[k] == l[i + k];
    }
  }

  /** Saving an already normalised value again stores the same value. */
  lemma {:induction false} NormalizeIdempotent(s: string)
    ensures Normalize(Normalize(s)) == Normalize(s)
  {
    var n := Normalize(s);
    assert ToLower(n) == n;
  }

  /** `username.toLowerCase()` before the schema's own setters changes nothing. */
  lemma NormalizeAfterLower(s: string)
    ensures Normalize(ToLower(s)) == Normalize(s)
  {
    assert ToLower(ToLower(s)) == ToLower(s);
  }

  /** `s` has an occurrence of `pat` starting at index `i`. */
  predicate OccursAt(s: string, pat: string, i: nat) {
    i + |pat| <= |s| && s[i..i + |pat|] == pat
  }

  /** `s.indexOf(pat, from)`: the first occurrence of `pat` at or after `from`. */
  function IndexOf(s: string, pat: string, from: nat): (r: Option<nat>)
    requires from <= |s|
    ensures r.Some? ==> from <= r.value && OccursAt(s, pat, r.value)
    ensures r.Some? ==> forall j :: from <= j < r.value ==> !OccursAt(s, pat, j)
    ensures r.None? ==> forall j :: from <= j <= |s| ==> !OccursAt(s, pat, j)
    decreases |s| - from
  {
    if OccursAt(s, pat, from) then Some(from)
    else if from == |s| then None
    else IndexOf(s, pat, from + 1)
  }

  /** `s.replace(pat, rep)` with a string pattern: only the first occurrence is replaced. */
  function ReplaceFirst(s: string, pat: string, rep: string): (r: string)
    ensures r == s || |r| + |pat| == |s| + |rep|
    ensures (forall j :: 0 <= j <= |s| ==> !OccursAt(s, pat, j)) ==> r == s
    ensures forall i: nat :: OccursAt(s, pat, i) && (forall j :: 0 <= j < i ==> !OccursAt(s, pat, j))
                        ==> r == s[..i] + rep + s[i + |pat|..]
  {
    match IndexOf(s, pat, 0)
    case None => s
    case Some(i) => s[..i] + rep + s[i + |pat|..]
  }

  /** Removing a pattern that prefixes the string yields exactly the remainder. */
  lemma RemovePrefix(pat: string, t: string)
    ensures ReplaceFirst(pat + t, pat, "") == t
  {
    var s := pat + t;
    assert s[0..|pat|] == pat;
    assert OccursAt(s, pat, 0);
    assert s[|pat|..] == t;
  }
}

=== FILE: like_controller.dfy ===
/**
 * The like handlers (src/controllers/like.controller.js). A like is a
 * relation between a user and a video or a comment; the toggles delete the
 * record when it exists and create it otherwise, and the two checks report
 * whether it exists.
 */
module LikeController {
  import opened Wrappers
  import opened Relation
  import opened Store

  /**
   * The shared toggle: `findOne`, then `deleteOne` of the first matching
   * record or `create`. The payload is the `liked` flag sent back with 200.
   */
  function ToggleLike(s: Store, x: Like): (r: Step<bool>)
    ensures r.reply.status == Ok && r.reply.data.Some?
    ensures r.reply.data.value <==> x !in s.likes
    ensures r.reply.data.value ==> multiset(r.store.likes) == multiset(s.likes) + multiset{x}
    ensures !r.reply.data.value ==> multiset(r.store.likes) == multiset(s.likes) - multiset{x}
    ensures forall y :: y != x ==> multiset(r.store.likes)[y] == multiset(s.likes)[y]
    ensures r.store == s.(likes := r.store.likes)
    ensures Valid(s) ==> Valid(r.store) && (x in r.store.likes <==> r.reply.data.value)
  {
    var (on, likes) := Toggle(s.likes, x);
    Step(Reply(Ok, Some(on)), s.(likes := likes))
  }

  /** `toggleVideoLike`: reports `liked: true` exactly when the user had not liked the video. */
  function ToggleVideoLike(s: Store, me: nat, video: nat): (r: Step<bool>)
    ensures r.reply.status == Ok && r.reply.data.Some?
    ensures r.reply.data.value <==> VideoLike(video, me) !in s.likes
    ensures r.reply.data.value ==> multiset(r.store.likes) == multiset(s.likes) + multiset{VideoLike(video, me)}
    ensures !r.reply.data.value ==> multiset(r.store.likes) == multiset(s.likes) - multiset{VideoLike(video, me)}
    ensures forall v, u :: (v, u) != (video, me) ==>
      multiset(r.store.likes)[VideoLike(v, u)] == multiset(s.likes)[VideoLike(v, u)]
    ensures forall c, u :: multiset(r.store.likes)[CommentLike(c, u)] == multiset(s.likes)[CommentLike(c, u)]
    ensures r.store == s.(likes := r.store.likes)
    ensures Valid(s) ==> Valid(r.store) && (VideoLike(video, me) in r.store.likes <==> r.reply.data.value)
  {
    ToggleLike(s, VideoLike(video, me))
  }

  /** `toggleCommentLike`: the same toggle on the (comment, user) record; no video like moves. */
  function ToggleCommentLike(s: Store, me: nat, comment: nat): (r: Step<bool>)
    ensures r.reply.status == Ok && r.reply.data.Some?
    ensures r.reply.data.value <==> CommentLike(comment, me) !in s.likes
    ensures r.reply.data.value ==> multiset(r.store.likes) == multiset(s.likes) + multiset{CommentLike(comment, me)}
    ensures !r.reply.data.value ==> multiset(r.store.likes) == multiset(s.likes) - multiset{CommentLike(comment, me)}
    ensures forall c, u :: (c, u) != (comment, me) ==>
      multiset(r.store.likes)[CommentLike(c, u)] == multiset(s.likes)[CommentLike(c, u)]
    ensures forall v, u :: multiset(r.store.likes)[VideoLike(v, u)] == multiset(s.likes)[VideoLike(v, u)]
    ensures r.store == s.(likes := r.store.likes)
    ensures Valid(s) ==> Valid(r.store) && (CommentLike(comment, me) in r.store.likes <==> r.reply.data.value)
  {
    ToggleLike(s, CommentLike(comment, me))
  }

  /** `checkIfVideoAlreadyLiked`: always 200, with `liked` the existence of the record. */
  function IsVideoLiked(s: Store, me: nat, video: nat): (r: Reply<bool>)
    ensures r.status == Ok && r.data.Some?
    ensures r.data.value <==> exists i :: 0 <= i < |s.likes| && s.likes[i] == VideoLike(video, me)
  {
    Reply(Ok, Some(Find(s.likes, (l: Like) => l == VideoLike(video, me)).Some?))
  }

  /** `checkIfCommentAlreadyLiked`. */
  function IsCommentLiked(s: Store, me: nat, comment: nat): (r: Reply<bool>)
    ensures r.status == Ok && r.data.Some?
    ensures r.data.value <==> exists i :: 0 <= i < |s.likes| && s.likes[i] == CommentLike(comment, me)
  {
    Reply(Ok, Some(Find(s.likes, (l: Like) => l == CommentLike(comment, me)).Some?))
  }

  /**
   * A like that survives `getLikedVideos`' pipeline: it is `me`'s, it names a
   * video (a comment like has no `video` field and joins nothing), and the
   * video still exists (the lookup array is non-empty).
   */
  predicate Live(videos: map<nat, Video>, me: nat, l: Like) {
    l.VideoLike? && l.likedBy == me && l.video in videos
  }

  /**
   * `getLikedVideos`: `$match` on the liker, `$lookup` of the video, drop the
   * likes whose video is gone, keep the joined video; in the likes' order.
   */
  function LikedVideos(likes: seq<Like>, videos: map<nat, Video>, me: nat): (r: seq<(nat, Video)>)
    ensures |r| <= |likes|
    ensures forall i :: 0 <= i < |r| ==>
      r[i].0 in videos && r[i].1 == videos[r[i].0] && VideoLike(r[i].0, me) in likes
    ensures forall i :: 0 <= i < |likes| && Live(videos, me, likes[i]) ==>
      (likes[i].video, videos[likes[i].video]) in r
  {
    if |likes| == 0 then []
    else
      var rest := LikedVideos(likes[1..], videos, me);
      if Live(videos, me, likes[0]) then [(likes[0].video, videos[likes[0].video])] + rest
      else rest
  }

  /** `getLikedVideos` answers 200 with the joined videos, possibly none. */
  function GetLikedVideos(s: Store, me: nat): (r: Reply<seq<(nat, Video)>>)
    ensures r.status == Ok && r.data.Some?
    ensures |r.data.value| == |Filter(s.likes, (l: Like) => Live(s.videos, me, l))|
    ensures forall i :: 0 <= i < |r.data.value| ==>
      var (v, video) := r.data.value[i];
      v in s.videos && video == s.videos[v] && VideoLike(v, me) in s.likes
    ensures forall i :: 0 <= i < |s.likes| && Live(s.videos, me, s.likes[i]) ==>
      (s.likes[i].video, s.videos[s.likes[i].video]) in r.data.value
  {
    LikedVideosCount(s.likes, s.videos, me);
    Reply(Ok, Some(LikedVideos(s.likes, s.videos, me)))
  }

  /** One result per live like: the length is the number of likes the pipeline keeps. */
  lemma {:induction false} LikedVideosCount(likes: seq<Like>, videos: map<nat, Video>, me: nat)
    ensures |LikedVideos(likes, videos, me)| == |Filter(likes, (l: Like) => Live(videos, me, l))|
  {
    if |likes| > 0 {
      LikedVideosCount(likes[1..], videos, me);
    }
  }

  /**
   * A toggle is visible to both readers: afterwards the check reports the
   * toggled state, and an existing video is among the liked videos exactly
   * when the toggle reported `liked: true`.
   */
  lemma ToggleThenRead(s: Store, me: nat, video: nat)
    requires Valid(s)
    ensures var r := ToggleVideoLike(s, me, video);
      && IsVideoLiked(r.store, me, video).data.value == r.reply.data.value
      && (video in s.videos ==>
            ((video, s.videos[video]) in GetLikedVideos(r.store, me).data.value <==> r.reply.data.value))
  {
    var r := ToggleVideoLike(s, me, video);
    var likes := r.store.likes;
    if VideoLike(video, me) in likes {
      var i :| 0 <= i < |likes| && likes[i] == VideoLike(video, me);
      assert Live(r.store.videos, me, likes[i]) <== video in s.videos;
    }
  }

  /** Liking twice restores the likes: exactly if the first toggle created the record, up to order otherwise. */
  lemma ToggleVideoLikeTwice(s: Store, me: nat, video: nat)
    requires Valid(s)
    ensures var r1 := ToggleVideoLike(s, me, video);
      var r2 := ToggleVideoLike(r1.store, me, video);
      && r2.reply.data.value == !r1.reply.data.value
      && multiset(r2.store.likes) == multiset(s.likes)
      && (r1.reply.data.value ==> r2.store == s)
  {
    ToggleTwice(s.likes, VideoLike(video, me));
  }

  /** A video's like count moves by exactly one per toggle, in the reported direction; other videos' counts stay. */
  lemma ToggleVideoLikeCount(s: Store, me: nat, video: nat, other: nat)
    ensures var r := ToggleVideoLike(s, me, video);
      var count := (likes: seq<Like>, v: nat) => |Filter(likes, (l: Like) => l.VideoLike? && l.video == v)|;
      && count(r.store.likes, video) == count(s.likes, video) + (if r.reply.data.value then 1 else -1)
      && (other != video ==> count(r.store.likes, other) == count(s.likes, other))
  {
    ToggleCount(s.likes, VideoLike(video, me), (l: Like) => l.VideoLike? && l.video == video);
    ToggleCount(s.likes, VideoLike(video, me), (l: Like) => l.VideoLike? && l.video == other);
  }
}

=== FILE: playlist_controller.dfy ===
/**
 * The playlist handlers (src/controllers/playlist.controller.js). A
 * playlist's `videos` array is kept free of duplicate videos: adding is
 * conditional on absence, removing pulls every matching entry.
 */
module PlaylistController {
  import opened Wrappers
  import opened JsText
  import opened Store

  /** Some entry of `es` holds video `v`: the negation of the filter `"videos.video": {$ne: v}`. */
  predicate Holds(es: seq<Entry>, v: nat) {
    exists i :: 0 <= i < |es| && es[i].video == v
  }

  /**
   * `createPlaylist`: 401 unless both `name` and `description` are truthy;
   * otherwise a playlist with a fresh id, owned by the requester, with no
   * videos. `category` is stored as given, absent or not.
   */
  function CreatePlaylist(s: Store, me: nat, name: Option<string>, description: Option<string>, category: Option<string>): (r: Step<(nat, Playlist)>)
    ensures r.reply.status == Ok || r.reply.status == Unauthorized
    ensures r.reply.status == Unauthorized <==> !Truthy(name) || !Truthy(description)
    ensures r.reply.status == Unauthorized ==> r.reply.data.None? && r.store == s
    ensures r.reply.status == Ok ==>
      && r.reply.data.Some?
      && var (id, p) := r.reply.data.value;
      && p == Playlist(name, description, category, me, [])
      && r.store == s.(playlists := s.playlists[id := p], nextId := s.nextId + 1)
    ensures Valid(s) && r.reply.status == Ok ==> r.reply.data.value.0 !in s.playlists
    ensures Valid(s) ==> Valid(r.store)
  {
    if !Truthy(name) || !Truthy(description) then Fail(Unauthorized, s)
    else
      var id := s.nextId;
      var p := Playlist(name, description, category, me, []);
      Step(Reply(Ok, Some((id, p))), s.(playlists := s.playlists[id := p], nextId := s.nextId + 1))
  }

  /**
   * `getUserPlaylists`: the playlists owned by `userId` (every playlist when
   * the parameter is absent), or 404 when there are none.
   */
  function GetUserPlaylists(s: Store, userId: Option<nat>): (r: Reply<map<nat, Playlist>>)
    ensures r.status == Ok || r.status == NotFound
    ensures r.status == Ok <==> r.data.Some?
    ensures r.status == NotFound <==>
      forall id :: id in s.playlists ==> userId.Some? && s.playlists[id].owner != userId.value
    ensures r.data.Some? ==> forall id :: id in r.data.value <==>
      id in s.playlists && (userId.None? || s.playlists[id].owner == userId.value)
    ensures r.data.Some? ==> forall id :: id in r.data.value ==> r.data.value[id] == s.playlists[id]
  {
    var found := map id | id in s.playlists && (userId.None? || s.playlists[id].owner == userId.value) :: s.playlists[id];
    assert forall id :: id in s.playlists && (userId.None? || s.playlists[id].owner == userId.value) ==> id in found;
    if |found| == 0 then Reply(NotFound, None)
    else Reply(Ok, Some(found))
  }

  /** A playlist created by `me` is among `me`'s playlists, unchanged, and can be fetched by its id. */
  lemma CreateThenList(s: Store, me: nat, name: Option<string>, description: Option<string>, category: Option<string>)
    requires CreatePlaylist(s, me, name, description, category).reply.status == Ok
    ensures var r := CreatePlaylist(s, me, name, description, category);
      var (id, p) := r.reply.data.value;
      var l := GetUserPlaylists(r.store, Some(me));
      && l.status == Ok && id in l.data.value && l.data.value[id] == p
      && GetPlaylistById(r.store, id) == Reply(Ok, Some(p))
  {
    var r := CreatePlaylist(s, me, name, description, category);
    var id := r.reply.data.value.0;
    assert id in r.store.playlists;
  }

  /** `getPlaylistById`: the playlist with that id, or 404. */
  function GetPlaylistById(s: Store, playlistId: nat): (r: Reply<Playlist>)
    ensures r.status == Ok || r.status == NotFound
    ensures r.status == Ok <==> playlistId in s.playlists
    ensures r.status == Ok ==> r.data == Some(s.playlists[playlistId])
    ensures r.status == NotFound ==> r.data.None?
  {
    if playlistId in s.playlists then Reply(Ok, Some(s.playlists[playlistId])) else Reply(NotFound, None)
  }

  /**
   * `addVideoToPlaylist`: 404 when the video does not exist; 400 when the
   * playlist does not exist or already holds the video; otherwise exactly one
   * `{video, thumbnail}` entry is appended and the updated playlist returned.
   */
  function AddVideoToPlaylist(s: Store, playlistId: nat, videoId: nat): (r: Step<Playlist>)
    ensures r.reply.status in {Ok, NotFound, BadRequest}
    ensures r.reply.status != Ok ==> r.reply.data.None? && r.store == s
    ensures r.reply.status == NotFound <==> videoId !in s.videos
    ensures r.reply.status == Ok <==>
      videoId in s.videos && playlistId in s.playlists && !Holds(s.playlists[playlistId].videos, videoId)
    ensures r.reply.status == Ok ==>
      var p := s.playlists[playlistId];
      && playlistId in r.store.playlists
      && r.reply.data == Some(r.store.playlists[playlistId])
      && r.store.playlists[playlistId] == p.(videos := p.videos + [Entry(videoId, s.videos[videoId].thumbnail)])
      && r.store == s.(playlists := r.store.playlists)
      && r.store.playlists.Keys == s.playlists.Keys
      && forall id :: id in s.playlists && id != playlistId ==> r.store.playlists[id] == s.playlists[id]
    ensures Valid(s) ==> Valid(r.store)
  {
    if videoId !in s.videos then Fail(NotFound, s)
    else if playlistId !in s.playlists || Holds(s.playlists[playlistId].videos, videoId) then Fail(BadRequest, s)
    else
      var p := s.playlists[playlistId];
      var q := p.(videos := p.videos + [Entry(videoId, s.videos[videoId].thumbnail)]);
      AppendKeepsNoDupVideos(p.videos, Entry(videoId, s.videos[videoId].thumbnail));
      Step(Reply(Ok, Some(q)), s.(playlists := s.playlists[playlistId := q]))
  }

  lemma AppendKeepsNoDupVideos(es: seq<Entry>, e: Entry)
    requires !Holds(es, e.video)
    ensures NoDupVideos(es) ==> NoDupVideos(es + [e])
  {
    var t := es + [e];
    if NoDupVideos(es) {
      forall i, j | 0 <= i < j < |t| ensures t[i].video != t[j].video {
        assert t[i] == es[i];
        if j < |es| {
          assert t[j] == es[j];
        }
      }
    }
  }

  /** The `$pull` of `{video: v}`: every entry holding `v` goes, the others stay in order. */
  function Pull(es: seq<Entry>, v: nat): (r: seq<Entry>)
    ensures |r| <= |es|
  {
    if |es| == 0 then []
    else if es[0].video == v then Pull(es[1..], v)
    else [es[0]] + Pull(es[1..], v)
  }

  /** Every entry `$pull` leaves was in the array, and none of them holds `v`. */
  lemma {:induction false} PullSubset(es: seq<Entry>, v: nat)
    ensures forall i :: 0 <= i < |Pull(es, v)| ==> Pull(es, v)[i] in es && Pull(es, v)[i].video != v
  {
    if |es| > 0 {
      PullSubset(es[1..], v);
      var rest := Pull(es[1..], v);
      assert forall e :: e in es[1..] ==> e in es;
      if es[0].video != v {
        assert forall i :: 1 <= i < |Pull(es, v)| ==> Pull(es, v)[i] == rest[i - 1];
      }
    }
  }

  /** `$pull` keeps every entry that does not hold `v`, and the whole array when none does. */
  lemma {:induction false} PullKeeps(es: seq<Entry>, v: nat)
    ensures forall i :: 0 <= i < |es| && es[i].video != v ==> es[i] in Pull(es, v)
    ensures !Holds(es, v) ==> Pull(es, v) == es
  {
    if |es| > 0 {
      PullKeeps(es[1..], v);
      assert es == [es[0]] + es[1..];
      assert forall i :: 1 <= i < |es| ==> es[i] == es[1..][i - 1];
      assert !Holds(es, v) ==> !Holds(es[1..], v);
    }
  }

  /** `$pull` keeps a playlist free of duplicate videos. */
  lemma {:induction false} PullNoDup(es: seq<Entry>, v: nat)
    ensures NoDupVideos(es) ==> NoDupVideos(Pull(es, v))
  {
    if |es| > 0 && NoDupVideos(es) {
      var tail := es[1..];
      assert NoDupVideos(tail) by {
        forall i, j | 0 <= i < j < |tail| ensures tail[i].video != tail[j].video {
          assert tail[i] == es[i + 1] && tail[j] == es[j + 1];
        }
      }
      PullNoDup(tail, v);
      PullSubset(tail, v);
      var rest := Pull(tail, v);
      if es[0].video != v {
        var r := [es[0]] + rest;
        forall i, j | 0 <= i < j < |r| ensures r[i].video != r[j].video {
          assert r[j] == rest[j - 1];
          var k :| 0 <= k < |tail| && tail[k] == rest[j - 1];
          assert es[k + 1] == r[j];
          if i > 0 {
            assert r[i] == rest[i - 1];
          }
        }
      }
    }
  }

  /**
   * What `$pull` leaves: no entry holding `v`, nothing that was not there
   * before, every other entry, the whole array when `v` was absent, and no
   * duplicate video when there was none.
   */
  lemma PullSpec(es: seq<Entry>, v: nat)
    ensures var r := Pull(es, v);
      && !Holds(r, v)
      && (forall i :: 0 <= i < |r| ==> r[i] in es)
      && (forall i :: 0 <= i < |es| && es[i].video != v ==> es[i] in r)
      && (!Holds(es, v) ==> r == es)
      && (NoDupVideos(es) ==> NoDupVideos(r))
  {
    PullSubset(es, v);
    PullKeeps(es, v);
    PullNoDup(es, v);
  }

  /** `$pull` distributes over concatenation, which is what keeps the surviving entries in order. */
  lemma {:induction false} PullAppend(a: seq<Entry>, b: seq<Entry>, v: nat)
    ensures Pull(a + b, v) == Pull(a, v) + Pull(b, v)
  {
    if |a| > 0 {
      assert (a + b)[1..] == a[1..] + b;
      PullAppend(a[1..], b, v);
    } else {
      assert a + b == b;
    }
  }

  /**
   * `removeVideoFromPlaylist`: 404 when the video does not exist; 402 when
   * the playlist does not; otherwise every entry holding the video is pulled
   * and the updated playlist returned. There is no owner check.
   */
  function RemoveVideoFromPlaylist(s: Store, playlistId: nat, videoId: nat): (r: Step<Playlist>)
    ensures r.reply.status in {Ok, NotFound, PaymentRequired}
    ensures r.reply.status != Ok ==> r.reply.data.None? && r.store == s
    ensures r.reply.status == NotFound <==> videoId !in s.videos
    ensures r.reply.status == PaymentRequired <==> videoId in s.videos && playlistId !in s.playlists
    ensures r.reply.status == Ok ==>
      var p := s.playlists[playlistId];
      && playlistId in r.store.playlists
      && r.reply.data == Some(r.store.playlists[playlistId])
      && r.store.playlists[playlistId] == p.(videos := Pull(p.videos, videoId))
      && !Holds(r.store.playlists[playlistId].videos, videoId)
      && r.store == s.(playlists := r.store.playlists)
      && r.store.playlists.Keys == s.playlists.Keys
      && forall id :: id in s.playlists && id != playlistId ==> r.store.playlists[id] == s.playlists[id]
    ensures Valid(s) ==> Valid(r.store)
  {
    if videoId !in s.videos then Fail(NotFound, s)
    else if playlistId !in s.playlists then Fail(PaymentRequired, s)
    else
      var p := s.playlists[playlistId];
      var q := p.(videos := Pull(p.videos, videoId));
      PullSpec(p.videos, videoId);
      Step(Reply(Ok, Some(q)), s.(playlists := s.playlists[playlistId := q]))
  }

  /** Adding a video and then removing it gives back the original store. */
  lemma AddThenRemove(s: Store, playlistId: nat, videoId: nat)
    requires AddVideoToPlaylist(s, playlistId, videoId).reply.status == Ok
    ensures var s1 := AddVideoToPlaylist(s, playlistId, videoId).store;
      var r := RemoveVideoFromPlaylist(s1, playlistId, videoId);
      r.reply.status == Ok && r.store == s
  {
    var s1 := AddVideoToPlaylist(s, playlistId, videoId).store;
    var p := s.playlists[playlistId];
    var e := Entry(videoId, s.videos[videoId].thumbnail);
    assert s1.playlists[playlistId].videos == p.videos + [e];
    PullAppend(p.videos, [e], videoId);
    PullSpec(p.videos, videoId);
    assert Pull([e], videoId) == [];
    assert Pull(p.videos + [e], videoId) == p.videos;
    var r := RemoveVideoFromPlaylist(s1, playlistId, videoId);
    assert r.store.playlists[playlistId] == p;
    assert r.store.playlists == s.playlists;
  }

  /** A second add of the same video is refused with 400 and changes nothing. */
  lemma AddTwice(s: Store, playlistId: nat, videoId: nat)
    requires AddVideoToPlaylist(s, playlistId, videoId).reply.status == Ok
    ensures var s1 := AddVideoToPlaylist(s, playlistId, videoId).store;
      AddVideoToPlaylist(s1, playlistId, videoId) == Fail(BadRequest, s1)
  {
    var s1 := AddVideoToPlaylist(s, playlistId, videoId).store;
    var es := s1.playlists[playlistId].videos;
    assert es[|es| - 1].video == videoId;
  }

  /**
   * `deletePlaylist`: `findByIdAndDelete` with no owner check; 402 when the
   * playlist is absent, otherwise the deleted playlist is returned.
   */
  function DeletePlaylist(s: Store, playlistId: nat): (r: Step<Playlist>)
    ensures r.reply.status == Ok || r.reply.status == PaymentRequired
    ensures r.reply.status == PaymentRequired <==> playlistId !in s.playlists
    ensures r.reply.status == PaymentRequired ==> r.reply.data.None? && r.store == s
    ensures r.reply.status == Ok ==>
      && r.reply.data == Some(s.playlists[playlistId])
      && r.store.playlists.Keys == s.playlists.Keys - {playlistId}
      && (forall id :: id in r.store.playlists ==> r.store.playlists[id] == s.playlists[id])
      && r.store == s.(playlists := r.store.playlists)
    ensures Valid(s) ==> Valid(r.store)
  {
    if playlistId !in s.playlists then Fail(PaymentRequired, s)
    else Step(Reply(Ok, Some(s.playlists[playlistId])), s.(playlists := s.playlists - {playlistId}))
  }

  /** After a delete the playlist is gone from every listing, and deleting it again answers 402. */
  lemma DeleteThenList(s: Store, playlistId: nat, userId: Option<nat>)
    requires DeletePlaylist(s, playlistId).reply.status == Ok
    ensures var s1 := DeletePlaylist(s, playlistId).store;
      && DeletePlaylist(s1, playlistId) == Fail(PaymentRequired, s1)
      && (GetUserPlaylists(s1, userId).data.Some? ==> playlistId !in GetUserPlaylists(s1, userId).data.value)
  {
  }

  /**
   * A JSON body field as `$set` sees it: absent (`undefined`, a key Mongoose
   * strips), `null` (stored as `null`), or a string.
   */
  datatype BodyField = Absent | Null | Given(text: string)

  predicate Filled(f: BodyField) {
    f.Given? && f.text != ""
  }

  /** The value a `$set` of `f` leaves in a field that held `current`. */
  function SetField(current: Option<string>, f: BodyField): (v: Option<string>)
    ensures f.Absent? ==> v == current
    ensures f.Null? ==> v.None?
    ensures f.Given? ==> v == Some(f.text)
  {
    match f
    case Absent => current
    case Null => None
    case Given(t) => Some(t)
  }

  /**
   * `updatePlaylist`: 401 when neither `name` nor `description` is truthy;
   * 400 when the playlist is absent; otherwise the present fields are set
   * (an empty string or `null` included, since update validators do not
   * run) and the updated playlist returned. Owner, category and videos never
   * change.
   */
  function UpdatePlaylist(s: Store, playlistId: nat, name: BodyField, description: BodyField): (r: Step<Playlist>)
    ensures r.reply.status in {Ok, Unauthorized, BadRequest}
    ensures r.reply.status != Ok ==> r.reply.data.None? && r.store == s
    ensures r.reply.status == Unauthorized <==> !Filled(name) && !Filled(description)
    ensures r.reply.status == BadRequest <==> (Filled(name) || Filled(description)) && playlistId !in s.playlists
    ensures r.reply.status == Ok ==> playlistId in r.store.playlists
    ensures r.reply.status == Ok ==>
      var p := s.playlists[playlistId];
      var q := r.store.playlists[playlistId];
      && r.reply.data == Some(q)
      && (name.Absent? ==> q.name == p.name)
      && (name.Null? ==> q.name.None?)
      && (name.Given? ==> q.name == Some(name.text))
      && (description.Absent? ==> q.description == p.description)
      && (description.Null? ==> q.description.None?)
      && (description.Given? ==> q.description == Some(description.text))
      && q.owner == p.owner && q.category == p.category && q.videos == p.videos
      && r.store == s.(playlists := s.playlists[playlistId := q])
    ensures Valid(s) ==> Valid(r.store)
  {
    if !Filled(name) && !Filled(description) then Fail(Unauthorized, s)
    else if playlistId !in s.playlists then Fail(BadRequest, s)
    else
      var p := s.playlists[playlistId];
      var q := p.(name := SetField(p.name, name), description := SetField(p.description, description));
      Step(Reply(Ok, Some(q)), s.(playlists := s.playlists[playlistId := q]))
  }
}

=== FILE: relation.dfy ===
/**
 * A document collection read as a relation: the existence of a record is the
 * boolean ("liked", "subscribed"). Records are kept as a sequence, in the
 * collection's natural order, so that a duplicate record is representable and
 * "at most one record per pair" is an invariant to prove rather than a
 * property of the representation.
 */
module Relation {
  import opened Wrappers

  /** `findOne` in natural order: the index of the first record satisfying `p`. */
  function Find<T>(s: seq<T>, p: T -> bool): (r: Option<nat>)
    ensures r.Some? ==> r.value < |s| && p(s[r.value])
    ensures r.Some? ==> forall j :: 0 <= j < r.value ==> !p(s[j])
    ensures r.None? <==> forall j :: 0 <= j < |s| ==> !p(s[j])
  {
    if |s| == 0 then None
    else if p(s[0]) then Some(0)
    else match Find(s[1..], p)
      case None => None
      case Some(i) => Some(i + 1)
  }

  /** No record occurs twice. */
  ghost predicate NoDup<T>(s: seq<T>) {
    forall i, j :: 0 <= i < j < |s| ==> s[i] != s[j]
  }

  /** No record occurs twice, stated through occurrence counts. */
  ghost predicate AtMostOnce<T>(s: seq<T>) {
    forall x :: x in multiset(s) ==> multiset(s)[x] == 1
  }

  lemma {:induction false} NoDupIffAtMostOnce<T>(s: seq<T>)
    ensures NoDup(s) <==> AtMostOnce(s)
  {
    if |s| > 0 {
      var t := s[1..];
      assert s == [s[0]] + t;
      NoDupIffAtMostOnce(t);
      if NoDup(s) {
        assert s[0] !in t by {
          forall j | 0 <= j < |t| ensures t[j] != s[0] {
            assert t[j] == s[j + 1];
          }
        }
        assert NoDup(t) by {
          forall i, j | 0 <= i < j < |t| ensures t[i] != t[j] {
            assert s[i + 1] != s[j + 1];
          }
        }
      }
      if AtMostOnce(s) {
        assert multiset(s) == multiset{s[0]} + multiset(t);
        assert AtMostOnce(t) by {
          forall x | x in multiset(t) ensures multiset(t)[x] == 1 {
            assert multiset(s)[x] == multiset(t)[x] + (if x == s[0] then 1 else 0);
          }
        }
        assert s[0] !in t by {
          assert multiset(s)[s[0]] == multiset(t)[s[0]] + 1;
        }
        forall i, j | 0 <= i < j < |s| ensures s[i] != s[j] {
          if i == 0 {
            assert s[j] == t[j - 1];
          } else {
            assert s[i] == t[i - 1] && s[j] == t[j - 1];
          }
        }
      }
    }
  }

  /** MongoDB `deleteOne`/`findOneAndDelete`: the first record equal to `x` goes. */
  function RemoveFirst<T(==)>(s: seq<T>, x: T): (r: seq<T>)
    ensures x in s ==> multiset(r) == multiset(s) - multiset{x}
    ensures x !in s ==> r == s
  {
    if |s| == 0 then s
    else
      assert s == [s[0]] + s[1..];
      if s[0] == x then s[1..] else [s[0]] + RemoveFirst(s[1..], x)
  }

  /**
   * The toggle every like and subscription handler performs: delete the record
   * when it exists, create it otherwise. The boolean is the state reported to
   * the client.
   */
  function Toggle<T(==)>(s: seq<T>, x: T): (r: (bool, seq<T>))
    ensures r.0 <==> x !in s
    ensures r.0 ==> multiset(r.1) == multiset(s) + multiset{x}
    ensures !r.0 ==> multiset(r.1) == multiset(s) - multiset{x}
    ensures NoDup(s) ==> NoDup(r.1) && (x in r.1 <==> r.0)
  {
    var r := if x in s then (false, RemoveFirst(s, x)) else (true, s + [x]);
    ToggleKeepsNoDup(s, x, r.1);
    r
  }

  lemma ToggleKeepsNoDup<T>(s: seq<T>, x: T, t: seq<T>)
    requires x in s ==> multiset(t) == multiset(s) - multiset{x}
    requires x !in s ==> multiset(t) == multiset(s) + multiset{x}
    ensures NoDup(s) ==> NoDup(t) && (x in t <==> x !in s)
  {
    NoDupIffAtMostOnce(s);
    assert x in s <==> x in multiset(s);
    assert x in t <==> x in multiset(t);
    NoDupIffAtMostOnce(t);
  }

  /** Appending a record that was absent and removing it again gives back the same sequence. */
  lemma {:induction false} RemoveFirstAppended<T>(s: seq<T>, x: T)
    requires x !in s
    ensures RemoveFirst(s + [x], x) == s
  {
    if |s| > 0 {
      assert (s + [x])[1..] == s[1..] + [x];
      RemoveFirstAppended(s[1..], x);
    }
  }

  /**
   * Two consecutive toggles of the same record report opposite states and
   * restore the collection: exactly when the record was absent, and up to the
   * order of the records when it was present (it is re-created at the end).
   */
  lemma ToggleTwice<T>(s: seq<T>, x: T)
    requires NoDup(s)
    ensures Toggle(Toggle(s, x).1, x).0 == !Toggle(s, x).0
    ensures multiset(Toggle(Toggle(s, x).1, x).1) == multiset(s)
    ensures x !in s ==> Toggle(Toggle(s, x).1, x).1 == s
  {
    if x !in s {
      RemoveFirstAppended(s, x);
    } else {
      var t := Toggle(s, x).1;
      assert multiset(t) == multiset(s) - multiset{x};
      assert multiset(t + [x]) == multiset(t) + multiset{x};
    }
  }

  /** The records satisfying `p`, in order: the result of a `find` with that filter. */
  function Filter<T(!new)>(s: seq<T>, p: T -> bool): (r: seq<T>)
    ensures forall i :: 0 <= i < |r| ==> r[i] in s && p(r[i])
    ensures forall i :: 0 <= i < |s| && p(s[i]) ==> s[i] in r
    ensures forall x :: multiset(r)[x] == if p(x) then multiset(s)[x] else 0
    ensures |r| <= |s|
  {
    if |s| == 0 then []
    else
      assert s == [s[0]] + s[1..];
      if p(s[0]) then [s[0]] + Filter(s[1..], p)
      else Filter(s[1..], p)
  }

  /** The positions of `s` whose record satisfies `p`. */
  ghost function Positions<T>(s: seq<T>, p: T -> bool): set<nat> {
    set i: nat | i < |s| && p(s[i])
  }

  /** A `find` returns one record per matching position: its length is the number of matching records. */
  lemma {:induction false} FilterCountsPositions<T(!new)>(s: seq<T>, p: T -> bool)
    ensures |Filter(s, p)| == |Positions(s, p)|
  {
    if |s| > 0 {
      var init, x := s[..|s| - 1], s[|s| - 1];
      assert s == init + [x];
      FilterCountsPositions(init, p);
      FilterAppend(init, x, p);
      PositionsSnoc(init, x, p);
    } else {
      assert Positions(s, p) == {};
    }
  }

  lemma PositionsSnoc<T>(init: seq<T>, x: T, p: T -> bool)
    ensures |Positions(init + [x], p)| == |Positions(init, p)| + (if p(x) then 1 else 0)
  {
    var s := init + [x];
    var before := Positions(init, p);
    var after := Positions(s, p);
    var added: set<nat> := if p(x) then {|init|} else {};
    forall i: nat ensures i in after <==> i in before + added {
      if i < |init| {
        assert s[i] == init[i];
      }
    }
    assert after == before + added;
    assert |init| !in before;
  }

  lemma {:induction false} FilterAppend<T(!new)>(s: seq<T>, x: T, p: T -> bool)
    ensures |Filter(s + [x], p)| == |Filter(s, p)| + (if p(x) then 1 else 0)
  {
    if |s| > 0 {
      assert (s + [x])[1..] == s[1..] + [x];
      FilterAppend(s[1..], x, p);
    } else {
      assert (s + [x])[1..] == [];
    }
  }

  lemma {:induction false} FilterRemoveFirst<T(!new)>(s: seq<T>, x: T, p: T -> bool)
    requires x in s
    ensures |Filter(RemoveFirst(s, x), p)| == |Filter(s, p)| - (if p(x) then 1 else 0)
  {
    if s[0] != x {
      assert RemoveFirst(s, x) == [s[0]] + RemoveFirst(s[1..], x);
      assert ([s[0]] + RemoveFirst(s[1..], x))[1..] == RemoveFirst(s[1..], x);
      FilterRemoveFirst(s[1..], x, p);
    }
  }

  /**
   * The number of records satisfying `p` moves by one after a toggle of a
   * record that satisfies `p`, and not at all after a toggle of one that does not.
   */
  lemma ToggleCount<T(!new)>(s: seq<T>, x: T, p: T -> bool)
    ensures var (on, t) := Toggle(s, x);
      |Filter(t, p)| == if !p(x) then |Filter(s, p)|
                        else if on then |Filter(s, p)| + 1
                        else |Filter(s, p)| - 1
  {
    if x in s {
      FilterRemoveFirst(s, x, p);
    } else {
      FilterAppend(s, x, p);
    }
  }
}

=== FILE: session_laws.dfy ===
/**
 * Laws of the session lifecycle that relate several handler calls: the
 * rotation law (a replayed refresh token is refused once it has been
 * rotated), revocation by logout, and the round trips from login to the
 * auth gate and to a refresh.
 */
module SessionLaws {
  import opened Wrappers
  import opened Crypto
  import opened UserModel
  import opened Store
  import opened AuthGate
  import opened UserController

  /**
   * Once a refresh has rotated the stored token to a different value,
   * presenting the old token again, at any later time, is refused with 401
   * and changes nothing.
   */
  lemma ReplayAfterRotation(env: Env, s: Store, req: RefreshRequest, now: nat, later: nat)
    requires RefreshAccessToken(env, s, req, now).reply.status == Ok
    requires RefreshAccessToken(env, s, req, now).reply.data.value.refreshToken != Presented(req).value
    ensures var s1 := RefreshAccessToken(env, s, req, now).store;
      RefreshAccessToken(env, s1, req, later) == Fail(Unauthorized, s1)
  {
    var r := RefreshAccessToken(env, s, req, now);
    var t := Presented(req).value;
    var id := Verify(env.prims, t, env.refresh.secret, now).value.id;
    assert r.store.users[id].refreshToken == Some(r.reply.data.value.refreshToken);
    var c := Verify(env.prims, t, env.refresh.secret, later);
    if c.Some? {
      assert c == env.prims.decode(t) == Verify(env.prims, t, env.refresh.secret, now);
    }
    assert RefreshAccessToken(env, r.store, req, later).reply.status != Ok;
  }

  /**
   * After a logout, no refresh succeeds for the logged-out user, whatever
   * token is presented, until a new login stores a token again.
   */
  lemma LogoutRevokes(env: Env, s: Store, me: nat, req: RefreshRequest, now: nat)
    ensures var s1 := LogOut(s, me).store;
      var r := RefreshAccessToken(env, s1, req, now);
      r.reply.status == Ok ==> Verify(env.prims, Presented(req).value, env.refresh.secret, now).value.id != me
  {
    var s1 := LogOut(s, me).store;
    if me < |s.users| {
      assert s1.users[me].refreshToken.None?;
    }
  }

  /**
   * The access token a login returns passes the auth gate at once, from the
   * cookie or from an `Authorization: Bearer` header, and the gate resolves
   * it to the user who logged in.
   */
  lemma LoginThenAuthenticate(env: Env, s: Store, f: LoginForm, now: nat, proj: Projection)
    requires JwtSound(env.prims)
    requires Login(env, s, f, now).reply.status == Ok
    ensures var r := Login(env, s, f, now);
      var access := r.reply.data.value.accessToken;
      var id := r.reply.data.value.user.id;
      && Authenticate(env, r.store, Request(Some(access), None), proj, now) == Reply(Ok, Some(View(id, r.store.users[id], proj)))
      && Authenticate(env, r.store, Request(None, Some(Bearer + access)), proj, now) == Reply(Ok, Some(View(id, r.store.users[id], proj)))
  {
    var r := Login(env, s, f, now);
    var access := r.reply.data.value.accessToken;
    BearerHeader(access);
    assert access != "";
  }

  /**
   * The refresh token a login returns is accepted by an immediate refresh,
   * which rotates the same user's stored token; once that rotation issued a
   * different token, the login's token is refused.
   */
  lemma LoginThenRefresh(env: Env, s: Store, f: LoginForm, now: nat, later: nat)
    requires JwtSound(env.prims)
    requires Login(env, s, f, now).reply.status == Ok
    ensures var r := Login(env, s, f, now);
      var req := RefreshRequest(Some(r.reply.data.value.refreshToken), None);
      var id := r.reply.data.value.user.id;
      var r2 := RefreshAccessToken(env, r.store, req, now);
      && r2.reply.status == Ok
      && r2.store == WithRefreshToken(r.store, id, Some(r2.reply.data.value.refreshToken))
      && (r2.reply.data.value.refreshToken != r.reply.data.value.refreshToken ==>
            RefreshAccessToken(env, r2.store, req, later) == Fail(Unauthorized, r2.store))
  {
    var r := Login(env, s, f, now);
    var t := r.reply.data.value.refreshToken;
    var req := RefreshRequest(Some(t), None);
    assert t != "";
    assert Presented(req) == Some(t);
    var r2 := RefreshAccessToken(env, r.store, req, now);
    assert r2.reply.status == Ok;
    if r2.reply.data.value.refreshToken != t {
      ReplayAfterRotation(env, r.store, req, now, later);
    }
  }
}

=== FILE: store.dfy ===
/**
 * The document store the controllers act on, the outcome every handler
 * reports, and the invariants the handlers are proved to preserve.
 *
 * Users are never deleted, so the users collection is a sequence indexed by
 * user id. Likes, subscriptions and tweets are sequences in the collection's
 * natural order; playlists are keyed by id. Videos are read, never written,
 * by the handlers modelled here. `nextId` is the source of fresh document ids.
 */
module Store {
  import opened Wrappers
  import opened UserModel
  import opened Relation

  /** The fields of a video document the modelled handlers read. */
  datatype Video = Video(owner: nat, thumbnail: string)

  /** A like document: the liker and exactly one liked target. */
  datatype Like =
    | VideoLike(video: nat, likedBy: nat)
    | CommentLike(comment: nat, likedBy: nat)

  /** A subscription document (src/models/subscription.models.js). */
  datatype Subscription = Subscription(subscriber: nat, channel: nat)

  /** One element of a playlist's `videos` array. */
  datatype Entry = Entry(video: nat, thumbnail: string)

  /**
   * `name` and `description` are `None` when the stored value is `null`,
   * which only `updatePlaylist` can write.
   */
  datatype Playlist = Playlist(
    name: Option<string>,
    description: Option<string>,
    category: Option<string>,
    owner: nat,
    videos: seq<Entry>)

  datatype Tweet = Tweet(id: nat, content: string, owner: nat, createdAt: nat)

  datatype Store = Store(
    users: seq<User>,
    videos: map<nat, Video>,
    likes: seq<Like>,
    subscriptions: seq<Subscription>,
    playlists: map<nat, Playlist>,
    tweets: seq<Tweet>,
    nextId: nat)

  /** The HTTP statuses the handlers send. */
  datatype Status = Ok | Created | BadRequest | Unauthorized | PaymentRequired | NotFound | Conflict | ServerError

  /** The response: a status and the `data` payload, `None` when there is none or it is `null`. */
  datatype Reply<T> = Reply(status: Status, data: Option<T>)

  /** One handler invocation: the response and the store after it. */
  datatype Step<T> = Step(reply: Reply<T>, store: Store)

  function Fail<T>(status: Status, s: Store): (r: Step<T>)
    ensures r.reply.status == status && r.reply.data.None? && r.store == s
  {
    Step(Reply(status, None), s)
  }

  /** No playlist lists the same video twice. */
  ghost predicate NoDupVideos(es: seq<Entry>) {
    forall i, j :: 0 <= i < j < |es| ==> es[i].video != es[j].video
  }

  ghost predicate PlaylistsValid(ps: map<nat, Playlist>, nextId: nat) {
    forall id :: id in ps ==> id < nextId && NoDupVideos(ps[id].videos)
  }

  /** Tweet ids are distinct and were drawn before `nextId`. */
  ghost predicate TweetsValid(ts: seq<Tweet>, nextId: nat) {
    && (forall i :: 0 <= i < |ts| ==> ts[i].id < nextId)
    && (forall i, j :: 0 <= i < j < |ts| ==> ts[i].id != ts[j].id)
  }

  /**
   * The store invariant: unique, normalised identities; at most one like
   * record per (user, target) and one subscription per (subscriber, channel);
   * no duplicate video in a playlist; distinct, fresh-drawn document ids.
   */
  ghost predicate Valid(s: Store) {
    && UsersValid(s.users)
    && NoDup(s.likes)
    && NoDup(s.subscriptions)
    && PlaylistsValid(s.playlists, s.nextId)
    && TweetsValid(s.tweets, s.nextId)
  }
}

=== FILE: subscription_controller.dfy ===
/**
 * The subscription handlers (src/controllers/subscription.controller.js): a
 * toggle of the (subscriber, channel) record, the two listings with their
 * counts, and the existence check.
 */
module SubscriptionController {
  import opened Wrappers
  import opened Relation
  import opened Store

  /**
   * `toggleSubscription`: `findOneAndDelete` of the first matching record;
   * when nothing was deleted, `create`. Reports `subscribed` with 200.
   */
  function ToggleSubscription(s: Store, me: nat, channel: nat): (r: Step<bool>)
    ensures r.reply.status == Ok && r.reply.data.Some?
    ensures r.reply.data.value <==> Subscription(me, channel) !in s.subscriptions
    ensures r.reply.data.value ==>
      multiset(r.store.subscriptions) == multiset(s.subscriptions) + multiset{Subscription(me, channel)}
    ensures !r.reply.data.value ==>
      multiset(r.store.subscriptions) == multiset(s.subscriptions) - multiset{Subscription(me, channel)}
    ensures forall y :: y != Subscription(me, channel) ==>
      multiset(r.store.subscriptions)[y] == multiset(s.subscriptions)[y]
    ensures r.store == s.(subscriptions := r.store.subscriptions)
    ensures Valid(s) ==> Valid(r.store) && (Subscription(me, channel) in r.store.subscriptions <==> r.reply.data.value)
  {
    var (on, subs) := Toggle(s.subscriptions, Subscription(me, channel));
    Step(Reply(Ok, Some(on)), s.(subscriptions := subs))
  }

  /** `getChannelTotalSubscribers`' payload: `{subscribers, subscribersCount}`. */
  datatype Subscribers = Subscribers(subscribers: seq<Subscription>, subscribersCount: nat)

  /** `getSubscribedChannels`' payload: `{channels, channelsCount}`. */
  datatype Channels = Channels(channels: seq<Subscription>, channelsCount: nat)

  /** `getChannelTotalSubscribers`: every record whose channel is `channel`, and how many. */
  function ChannelSubscribers(s: Store, channel: nat): (r: Reply<Subscribers>)
    ensures r.status == Ok && r.data.Some?
    ensures r.data.value.subscribersCount == |r.data.value.subscribers|
    ensures forall i :: 0 <= i < |r.data.value.subscribers| ==>
      r.data.value.subscribers[i] in s.subscriptions && r.data.value.subscribers[i].channel == channel
    ensures forall i :: 0 <= i < |s.subscriptions| && s.subscriptions[i].channel == channel ==>
      s.subscriptions[i] in r.data.value.subscribers
    ensures forall x :: multiset(r.data.value.subscribers)[x] == (if x.channel == channel then multiset(s.subscriptions)[x] else 0)
    ensures r.data.value.subscribersCount ==
      |set i: nat | i < |s.subscriptions| && s.subscriptions[i].channel == channel|
  {
    var keep := (x: Subscription) => x.channel == channel;
    var subs := Filter(s.subscriptions, keep);
    FilterCountsPositions(s.subscriptions, keep);
    assert Positions(s.subscriptions, keep) ==
      set i: nat | i < |s.subscriptions| && s.subscriptions[i].channel == channel;
    Reply(Ok, Some(Subscribers(subs, |subs|)))
  }

  /** `getSubscribedChannels`: every record whose subscriber is `subscriber`, and how many. */
  function SubscribedChannels(s: Store, subscriber: nat): (r: Reply<Channels>)
    ensures r.status == Ok && r.data.Some?
    ensures r.data.value.channelsCount == |r.data.value.channels|
    ensures forall i :: 0 <= i < |r.data.value.channels| ==>
      r.data.value.channels[i] in s.subscriptions && r.data.value.channels[i].subscriber == subscriber
    ensures forall i :: 0 <= i < |s.subscriptions| && s.subscriptions[i].subscriber == subscriber ==>
      s.subscriptions[i] in r.data.value.channels
    ensures forall x :: multiset(r.data.value.channels)[x] == (if x.subscriber == subscriber then multiset(s.subscriptions)[x] else 0)
    ensures r.data.value.channelsCount ==
      |set i: nat | i < |s.subscriptions| && s.subscriptions[i].subscriber == subscriber|
  {
    var keep := (x: Subscription) => x.subscriber == subscriber;
    var subs := Filter(s.subscriptions, keep);
    FilterCountsPositions(s.subscriptions, keep);
    assert Positions(s.subscriptions, keep) ==
      set i: nat | i < |s.subscriptions| && s.subscriptions[i].subscriber == subscriber;
    Reply(Ok, Some(Channels(subs, |subs|)))
  }

  /** `checkIfSubscribed`: always 200, with `subscribed` the existence of the record. */
  function IsSubscribed(s: Store, me: nat, channel: nat): (r: Reply<bool>)
    ensures r.status == Ok && r.data.Some?
    ensures r.data.value <==>
      exists i :: 0 <= i < |s.subscriptions| && s.subscriptions[i] == Subscription(me, channel)
  {
    Reply(Ok, Some(Find(s.subscriptions, (x: Subscription) => x == Subscription(me, channel)).Some?))
  }

  /**
   * The channel's subscriber count and the subscriber's channel count both
   * move by one in the reported direction; every other channel's count stays.
   */
  lemma ToggleSubscriptionCounts(s: Store, me: nat, channel: nat, other: nat)
    ensures var r := ToggleSubscription(s, me, channel);
      var delta := if r.reply.data.value then 1 else -1;
      && ChannelSubscribers(r.store, channel).data.value.subscribersCount == ChannelSubscribers(s, channel).data.value.subscribersCount + delta
      && SubscribedChannels(r.store, me).data.value.channelsCount == SubscribedChannels(s, me).data.value.channelsCount + delta
      && (other != channel ==>
            ChannelSubscribers(r.store, other).data.value.subscribersCount == ChannelSubscribers(s, other).data.value.subscribersCount)
  {
    var x := Subscription(me, channel);
    ToggleCount(s.subscriptions, x, (y: Subscription) => y.channel == channel);
    ToggleCount(s.subscriptions, x, (y: Subscription) => y.subscriber == me);
    ToggleCount(s.subscriptions, x, (y: Subscription) => y.channel == other);
  }

  /**
   * Subscribing and unsubscribing: the check follows the toggle, and a second
   * toggle reports the opposite state and restores the subscriptions (up to
   * order when the first toggle deleted a record) and the subscriber count.
   */
  lemma ToggleSubscriptionTwice(s: Store, me: nat, channel: nat)
    requires Valid(s)
    ensures var r1 := ToggleSubscription(s, me, channel);
      var r2 := ToggleSubscription(r1.store, me, channel);
      && IsSubscribed(r1.store, me, channel).data.value == r1.reply.data.value
      && r2.reply.data.value == !r1.reply.data.value
      && multiset(r2.store.subscriptions) == multiset(s.subscriptions)
      && r2.store == s.(subscriptions := r2.store.subscriptions)
      && ChannelSubscribers(r2.store, channel).data.value.subscribersCount == ChannelSubscribers(s, channel).data.value.subscribersCount
      && (r1.reply.data.value ==> r2.store == s)
  {
    var r1 := ToggleSubscription(s, me, channel);
    ToggleTwice(s.subscriptions, Subscription(me, channel));
    ToggleSubscriptionCounts(s, me, channel, channel);
    ToggleSubscriptionCounts(r1.store, me, channel, channel);
  }
}

=== FILE: tweet_controller.dfy ===
/**
 * The tweet handlers (src/controllers/tweet.controller.js). Mutations are
 * owner-scoped: the update and the delete select the tweet by id AND owner,
 * so a non-owner's request matches nothing and changes nothing. The listing
 * is one fixed page of the newest tweets.
 */
module TweetController {
  import opened Wrappers
  import opened JsText
  import opened Relation
  import opened Store

  /** `createTweet`: one tweet with a fresh id, the given content, the requester as owner, stamped `now`. */
  function CreateTweet(s: Store, me: nat, content: string, now: nat): (r: Step<Tweet>)
    ensures r.reply.status == Ok
    ensures r.reply.data.Some?
    ensures var t := r.reply.data.value;
      && t.content == content && t.owner == me && t.createdAt == now
      && r.store == s.(tweets := s.tweets + [t], nextId := s.nextId + 1)
    ensures Valid(s) ==> (forall i :: 0 <= i < |s.tweets| ==> s.tweets[i].id != r.reply.data.value.id) && Valid(r.store)
  {
    var t := Tweet(s.nextId, content, me, now);
    Step(Reply(Ok, Some(t)), s.(tweets := s.tweets + [t], nextId := s.nextId + 1))
  }

  /**
   * `getUserTweets`: the tweets owned by `userId` (every tweet when the
   * parameter is absent), in natural order, or 404 when there are none.
   */
  function GetUserTweets(s: Store, userId: Option<nat>): (r: Reply<seq<Tweet>>)
    ensures r.status == Ok || r.status == NotFound
    ensures r.status == Ok <==> r.data.Some?
    ensures r.status == NotFound <==>
      forall i :: 0 <= i < |s.tweets| ==> userId.Some? && s.tweets[i].owner != userId.value
    ensures r.data.Some? ==> forall i :: 0 <= i < |r.data.value| ==>
      r.data.value[i] in s.tweets && (userId.None? || r.data.value[i].owner == userId.value)
    ensures r.data.Some? ==> forall i :: 0 <= i < |s.tweets| && (userId.None? || s.tweets[i].owner == userId.value) ==>
      s.tweets[i] in r.data.value
    ensures r.data.Some? ==>
      forall x :: multiset(r.data.value)[x] == (if userId.None? || x.owner == userId.value then multiset(s.tweets)[x] else 0)
  {
    var found := Filter(s.tweets, (t: Tweet) => userId.None? || t.owner == userId.value);
    if |found| == 0 then Reply(NotFound, None)
    else
      assert found[0] in s.tweets;
      Reply(Ok, Some(found))
  }

  /** The filter `{_id: tweetId, owner: me}` of the update and the delete. */
  function OwnedMatch(s: Store, me: nat, tweetId: nat): (r: Option<nat>)
    ensures r.Some? ==> r.value < |s.tweets| && s.tweets[r.value].id == tweetId && s.tweets[r.value].owner == me
    ensures r.None? <==> forall i :: 0 <= i < |s.tweets| ==> !(s.tweets[i].id == tweetId && s.tweets[i].owner == me)
  {
    Find(s.tweets, (t: Tweet) => t.id == tweetId && t.owner == me)
  }

  /**
   * `updateTweet`: always 200. Without truthy text nothing happens and no
   * data is sent; otherwise the requester's tweet with that id gets the new
   * content and is returned, and when there is no such tweet the data is
   * `null` and nothing changes.
   */
  function UpdateTweet(s: Store, me: nat, tweetId: nat, text: Option<string>): (r: Step<Tweet>)
    ensures r.reply.status == Ok
    ensures !Truthy(text) ==> r.reply.data.None? && r.store == s
    ensures OwnedMatch(s, me, tweetId).None? ==> r.reply.data.None? && r.store == s
    ensures Truthy(text) && OwnedMatch(s, me, tweetId).Some? ==>
      var i := OwnedMatch(s, me, tweetId).value;
      && r.reply.data == Some(s.tweets[i].(content := text.value))
      && r.store == s.(tweets := s.tweets[i := s.tweets[i].(content := text.value)])
    ensures Valid(s) ==> Valid(r.store)
  {
    if !Truthy(text) then Step(Reply(Ok, None), s)
    else match OwnedMatch(s, me, tweetId)
      case None => Step(Reply(Ok, None), s)
      case Some(i) =>
        var t := s.tweets[i].(content := text.value);
        Step(Reply(Ok, Some(t)), s.(tweets := s.tweets[i := t]))
  }

  /** The tweets without the one at index `i`. */
  function Without(ts: seq<Tweet>, i: nat): (r: seq<Tweet>)
    requires i < |ts|
    ensures |r| == |ts| - 1
    ensures multiset(r) == multiset(ts) - multiset{ts[i]}
    ensures forall j :: 0 <= j < |r| ==> r[j] == if j < i then ts[j] else ts[j + 1]
  {
    assert ts == ts[..i] + [ts[i]] + ts[i + 1..];
    ts[..i] + ts[i + 1..]
  }

  /** Removing one tweet keeps the ids distinct and fresh-drawn, and no tweet with the removed id is left. */
  lemma WithoutValid(ts: seq<Tweet>, i: nat, nextId: nat)
    requires i < |ts|
    ensures TweetsValid(ts, nextId) ==> TweetsValid(Without(ts, i), nextId)
    ensures TweetsValid(ts, nextId) ==> forall j :: 0 <= j < |Without(ts, i)| ==> Without(ts, i)[j].id != ts[i].id
  {
    if !TweetsValid(ts, nextId) {
      return;
    }
    var r := Without(ts, i);
    forall j, k | 0 <= j < k < |r| ensures r[j].id != r[k].id {
      var j' := if j < i then j else j + 1;
      var k' := if k < i then k else k + 1;
      assert r[j] == ts[j'] && r[k] == ts[k'] && j' < k';
    }
    forall j | 0 <= j < |r| ensures r[j].id != ts[i].id {
      var j' := if j < i then j else j + 1;
      assert r[j] == ts[j'] && j' != i;
    }
  }

  /**
   * `deleteTweet` as the code is written: the owner's tweet is deleted, then
   * line 62 reads the undeclared `response`, which throws; the handler's
   * wrapper turns that into a 500. A non-owner gets 404 and nothing changes.
   */
  function DeleteTweetAsWritten(s: Store, me: nat, tweetId: nat): (r: Step<Tweet>)
    ensures r.reply.status == ServerError || r.reply.status == NotFound
    ensures r.reply.data.None?
    ensures r.reply.status == NotFound <==> OwnedMatch(s, me, tweetId).None?
    ensures r.reply.status == NotFound ==> r.store == s
    ensures r.reply.status == ServerError ==>
      |r.store.tweets| == |s.tweets| - 1 && r.store == s.(tweets := r.store.tweets)
  {
    match OwnedMatch(s, me, tweetId)
    case None => Fail(NotFound, s)
    case Some(i) => Step(Reply(ServerError, None), s.(tweets := Without(s.tweets, i)))
  }

  /**
   * The discrepancy: whenever the requester owns the tweet, the client is
   * told the request failed although the tweet is gone.
   */
  lemma DeleteReportsFailureAfterDeleting(s: Store, me: nat, tweetId: nat)
    requires Valid(s)
    requires exists i :: 0 <= i < |s.tweets| && s.tweets[i].id == tweetId && s.tweets[i].owner == me
    ensures var r := DeleteTweetAsWritten(s, me, tweetId);
      && r.reply.status == ServerError
      && r.store != s
      && forall j :: 0 <= j < |r.store.tweets| ==> r.store.tweets[j].id != tweetId
  {
    var i := OwnedMatch(s, me, tweetId).value;
    WithoutValid(s.tweets, i, s.nextId);
    var r := DeleteTweetAsWritten(s, me, tweetId);
    assert |r.store.tweets| != |s.tweets|;
  }

  /**
   * `deleteTweet` as evidently intended: 200 with the deleted tweet when the
   * requester owns a tweet with that id, 404 with nothing changed otherwise.
   */
  function DeleteTweet(s: Store, me: nat, tweetId: nat): (r: Step<Tweet>)
    ensures r.reply.status == Ok || r.reply.status == NotFound
    ensures r.reply.status == Ok <==> r.reply.data.Some?
    ensures r.reply.status == NotFound <==> OwnedMatch(s, me, tweetId).None?
    ensures r.reply.status == NotFound ==> r.store == s
    ensures r.reply.data.Some? ==>
      var t := r.reply.data.value;
      && t.id == tweetId && t.owner == me && t in s.tweets
      && multiset(r.store.tweets) == multiset(s.tweets) - multiset{t}
      && r.store == s.(tweets := r.store.tweets)
    ensures Valid(s) ==> Valid(r.store)
    ensures Valid(s) ==> forall j :: 0 <= j < |r.store.tweets| ==>
      r.store.tweets[j].id == tweetId ==> r.reply.status == NotFound
  {
    match OwnedMatch(s, me, tweetId)
    case None => Fail(NotFound, s)
    case Some(i) =>
      WithoutValid(s.tweets, i, s.nextId);
      Step(Reply(Ok, Some(s.tweets[i])), s.(tweets := Without(s.tweets, i)))
  }

  /** Apart from the reported outcome, the corrected delete does to the store what the written one does. */
  lemma DeleteSameEffect(s: Store, me: nat, tweetId: nat)
    ensures DeleteTweet(s, me, tweetId).store == DeleteTweetAsWritten(s, me, tweetId).store
  {
  }

  /**
   * Owner scoping: when the tweet with that id belongs to someone else, an
   * update or a delete by `me` leaves the store exactly as it was.
   */
  lemma NonOwnerChangesNothing(s: Store, me: nat, tweetId: nat, text: Option<string>)
    requires Valid(s)
    requires exists i :: 0 <= i < |s.tweets| && s.tweets[i].id == tweetId && s.tweets[i].owner != me
    ensures UpdateTweet(s, me, tweetId, text) == Step(Reply(Ok, None), s)
    ensures DeleteTweet(s, me, tweetId) == Fail(NotFound, s)
  {
    var i :| 0 <= i < |s.tweets| && s.tweets[i].id == tweetId && s.tweets[i].owner != me;
    forall j | 0 <= j < |s.tweets| ensures !(s.tweets[j].id == tweetId && s.tweets[j].owner == me) {
      if j != i {
        assert s.tweets[j].id != s.tweets[i].id;
      }
    }
  }

  /** A created tweet is listed for its owner, and its owner's delete gives back the store before the creation, up to the id counter. */
  lemma CreateThenDelete(s: Store, me: nat, content: string, now: nat)
    requires Valid(s)
    ensures var r := CreateTweet(s, me, content, now);
      var t := r.reply.data.value;
      && GetUserTweets(r.store, Some(me)).data.Some?
      && t in GetUserTweets(r.store, Some(me)).data.value
      && DeleteTweet(r.store, me, t.id) == Step(Reply(Ok, Some(t)), s.(nextId := s.nextId + 1))
  {
    var r := CreateTweet(s, me, content, now);
    var ts := r.store.tweets;
    assert ts[|ts| - 1] == r.reply.data.value;
    var m := OwnedMatch(r.store, me, s.nextId);
    assert m == Some(|s.tweets|);
    assert Without(ts, |s.tweets|) == s.tweets;
  }

  /** Newest first: `createdAt` never increases along the sequence. */
  predicate NewestFirst(ts: seq<Tweet>) {
    forall i, j :: 0 <= i < j < |ts| ==> ts[i].createdAt >= ts[j].createdAt
  }

  /** No tweet of `ts` is newer than `c`. */
  predicate NotNewerThan(ts: seq<Tweet>, c: nat) {
    forall k :: 0 <= k < |ts| ==> ts[k].createdAt <= c
  }

  /** A tweet no older than any of a newest-first sequence can lead it. */
  lemma PrependNewest(x: Tweet, ts: seq<Tweet>)
    requires NewestFirst(ts) && NotNewerThan(ts, x.createdAt)
    ensures NewestFirst([x] + ts)
  {
    var r := [x] + ts;
    forall i, j | 0 <= i < j < |r| ensures r[i].createdAt >= r[j].createdAt {
      assert r[j] == ts[j - 1];
      if i > 0 {
        assert r[i] == ts[i - 1];
      }
    }
  }

  /** The bound depends only on the multiset of tweets. */
  lemma BoundByMultiset(a: seq<Tweet>, b: seq<Tweet>, c: nat)
    requires multiset(a) == multiset(b) && NotNewerThan(b, c)
    ensures NotNewerThan(a, c)
  {
    forall k | 0 <= k < |a| ensures a[k].createdAt <= c {
      assert a[k] in multiset(b);
      var m :| 0 <= m < |b| && b[m] == a[k];
    }
  }

  /** Inserts `t` into a newest-first sequence, before every tweet that is not newer. */
  function InsertByRecency(t: Tweet, ts: seq<Tweet>): (r: seq<Tweet>)
    requires NewestFirst(ts)
    ensures NewestFirst(r)
    ensures multiset(r) == multiset(ts) + multiset{t}
  {
    if |ts| == 0 || t.createdAt >= ts[0].createdAt then
      PrependNewest(t, ts);
      [t] + ts
    else
      assert ts == [ts[0]] + ts[1..];
      var rest := InsertByRecency(t, ts[1..]);
      BoundByMultiset(rest, ts[1..] + [t], ts[0].createdAt);
      PrependNewest(ts[0], rest);
      [ts[0]] + rest
  }

  /** The `sort({createdAt: -1})` stage: a newest-first permutation of the tweets. */
  function SortByRecency(ts: seq<Tweet>): (r: seq<Tweet>)
    ensures NewestFirst(r)
    ensures multiset(r) == multiset(ts)
  {
    if |ts| == 0 then []
    else
      assert ts == [ts[0]] + ts[1..];
      InsertByRecency(ts[0], SortByRecency(ts[1..]))
  }

  /**
   * The first `k` tweets of a newest-first permutation of `ts` are a
   * newest-first selection of `ts`, and every tweet left out is no newer
   * than the last one selected.
   */
  lemma FirstOfSorted(sorted: seq<Tweet>, ts: seq<Tweet>, k: nat)
    requires NewestFirst(sorted) && multiset(sorted) == multiset(ts)
    requires 0 < k <= |sorted|
    ensures NewestFirst(sorted[..k])
    ensures multiset(sorted[..k]) <= multiset(ts)
    ensures forall t :: t in multiset(ts) - multiset(sorted[..k]) ==> t.createdAt <= sorted[k - 1].createdAt
  {
    var page := sorted[..k];
    var rest := sorted[k..];
    assert sorted == page + rest;
    assert multiset(ts) - multiset(page) == multiset(rest);
    forall i, j | 0 <= i < j < |page| ensures page[i].createdAt >= page[j].createdAt {
      assert page[i] == sorted[i] && page[j] == sorted[j];
    }
    assert NotNewerThan(rest, sorted[k - 1].createdAt) by {
      forall m | 0 <= m < |rest| ensures rest[m].createdAt <= sorted[k - 1].createdAt {
        assert rest[m] == sorted[k + m];
      }
    }
    forall t: Tweet | t in multiset(ts) - multiset(page) ensures t.createdAt <= sorted[k - 1].createdAt {
      assert t in multiset(rest);
      var m :| 0 <= m < |rest| && rest[m] == t;
    }
  }

  /** The fixed page `getAllTweets` serves. */
  const Page: nat := 1
  const Limit: nat := 10
  const Skip: nat := (Page - 1) * Limit

  /**
   * `getAllTweets`: 404 when there are no tweets; otherwise the first page of
   * at most ten tweets, newest first, with no omitted tweet newer than the
   * last one shown.
   */
  function GetAllTweets(s: Store): (r: Reply<seq<Tweet>>)
    ensures r.status == Ok || r.status == NotFound
    ensures r.status == NotFound <==> |s.tweets| == 0
    ensures r.status == Ok <==> r.data.Some?
    ensures r.data.Some? ==>
      var page := r.data.value;
      && |page| == (if |s.tweets| < Limit then |s.tweets| else Limit)
      && NewestFirst(page)
      && multiset(page) <= multiset(s.tweets)
      && forall t :: t in multiset(s.tweets) - multiset(page) ==> t.createdAt <= page[|page| - 1].createdAt
  {
    var sorted := SortByRecency(s.tweets);
    assert |sorted| == |s.tweets| by {
      assert |multiset(sorted)| == |multiset(s.tweets)|;
    }
    var to := if Limit <= |sorted| then Limit else |sorted|;
    var page := sorted[Skip..][..to];
    if |page| == 0 then Reply(NotFound, None)
    else
      FirstOfSorted(sorted, s.tweets, to);
      Reply(Ok, Some(page))
  }
}

=== FILE: user_controller.dfy ===
/**
 * The session and account handlers of src/controllers/user.controller.js:
 * token issuance, registration, login, logout, refresh-token rotation,
 * password change and account-detail update.
 */
module UserController {
  import opened Wrappers
  import opened JsText
  import opened Crypto
  import opened UserModel
  import opened Store
  import opened Relation

  datatype Tokens = Tokens(accessToken: string, refreshToken: string)

  /** The store with user `id`'s stored refresh token replaced by `t`. */
  function WithRefreshToken(s: Store, id: nat, t: Option<string>): (r: Store)
    requires id < |s.users|
    ensures |r.users| == |s.users| && r.users[id].refreshToken == t
    ensures r.users[id].(refreshToken := s.users[id].refreshToken) == s.users[id]
    ensures forall j :: 0 <= j < |s.users| && j != id ==> r.users[j] == s.users[j]
    ensures r == s.(users := r.users)
  {
    s.(users := s.users[id := s.users[id].(refreshToken := t)])
  }

  lemma WithRefreshTokenValid(s: Store, id: nat, t: Option<string>)
    requires id < |s.users|
    ensures Valid(s) ==> Valid(WithRefreshToken(s, id, t))
  {
    if Valid(s) {
      SameIdentityValid(s.users, id, s.users[id].(refreshToken := t));
    }
  }

  /**
   * `generateAccessAndRefreshTokens(userId)`: sign both tokens and save the
   * refresh token as the user's only stored one, overwriting any previous
   * value. The save does not modify the password, so the digest is kept.
   */
  function GenerateTokens(env: Env, s: Store, id: nat, now: nat): (r: Step<Tokens>)
    ensures id >= |s.users| ==> r == Fail(ServerError, s)
    ensures id < |s.users| ==>
      && r.reply.status == Ok && r.reply.data.Some?
      && r.reply.data.value.refreshToken == GenerateRefreshToken(env, id, now)
      && r.reply.data.value.accessToken == GenerateAccessToken(env, id, s.users[id], now)
      && r.store == WithRefreshToken(s, id, Some(r.reply.data.value.refreshToken))
      && r.store.users[id].password == s.users[id].password
    ensures Valid(s) ==> Valid(r.store)
  {
    if id >= |s.users| then Fail(ServerError, s)
    else
      var u := s.users[id];
      var refresh := GenerateRefreshToken(env, id, now);
      var access := GenerateAccessToken(env, id, u, now);
      var saved := Save(env.prims, u.(refreshToken := Some(refresh)), None, "");
      WithRefreshTokenValid(s, id, Some(refresh));
      Step(Reply(Ok, Some(Tokens(access, refresh))), s.(users := s.users[id := saved]))
  }

  /** The text fields of the registration body; `None` is a field the body lacks. */
  datatype RegisterForm = RegisterForm(
    fullName: Option<string>,
    email: Option<string>,
    username: Option<string>,
    password: Option<string>)

  /** `field?.trim() === ""`: present and made only of whitespace. */
  predicate Blank(f: Option<string>) {
    f.Some? && Trim(f.value) == ""
  }

  predicate AnyBlank(f: RegisterForm) {
    Blank(f.fullName) || Blank(f.email) || Blank(f.username) || Blank(f.password)
  }

  /**
   * One branch of `{$or: [{username}, {email}]}`. Query values go through the
   * schema's setters; an absent field matches no user, since both fields are
   * required and never null in a stored user.
   */
  predicate MatchesIdentity(u: User, username: Option<string>, email: Option<string>) {
    || (username.Some? && Normalize(username.value) == u.username)
    || (email.Some? && Normalize(email.value) == u.email)
  }

  /** `User.findOne({$or: [{username}, {email}]})`: the first matching user's id. */
  function FindByIdentity(users: seq<User>, username: Option<string>, email: Option<string>): (r: Option<nat>)
    ensures r.Some? ==> r.value < |users| && MatchesIdentity(users[r.value], username, email)
    ensures r.None? <==> forall i :: 0 <= i < |users| ==> !MatchesIdentity(users[i], username, email)
  {
    Find(users, u => MatchesIdentity(u, username, email))
  }

  /** The user `registerUser` creates from a validated form. */
  function NewUser(env: Env, f: RegisterForm, avatar: string, coverImage: Option<string>, salt: string): User
    requires f.fullName.Some? && f.email.Some? && f.username.Some? && f.password.Some?
  {
    var created := User(Normalize(ToLower(f.username.value)), Normalize(f.email.value), Trim(f.fullName.value),
                        avatar, Some(coverImage.GetOr("")), [], Hash(env.prims, f.password.value, salt), None);
    created
  }

  /**
   * What the upload middleware of the /register route leaves for the avatar.
   * `NotMultipart`: the body was not multipart, so `req.files` is unset.
   * `NoAvatarFile`: a multipart body without an `avatar` file, so `req.files`
   * is an object without an `avatar` key. `AvatarFile(url)`: the file was
   * received, and `url` is what the media store returned for it (`None` when
   * the upload failed).
   */
  datatype AvatarUpload = NotMultipart | NoAvatarFile | AvatarFile(url: Option<string>)

  /**
   * `registerUser`. `coverImage` is the URL the media store returned for the
   * cover image, `None` when there was none; `salt` is the salt bcrypt draws.
   * With `NoAvatarFile`, `req.files?.avatar[0]` indexes `undefined`; the
   * handler's `catch` turns that TypeError into a 500.
   */
  function Register(env: Env, s: Store, f: RegisterForm, avatar: AvatarUpload, coverImage: Option<string>,
                    salt: string): (r: Step<UserView>)
    ensures AnyBlank(f) ==> r == Fail(BadRequest, s)
    ensures !AnyBlank(f) && FindByIdentity(s.users, f.username, f.email).Some? ==> r == Fail(Conflict, s)
    ensures !AnyBlank(f) && FindByIdentity(s.users, f.username, f.email).None? ==>
      && (avatar.NoAvatarFile? ==> r == Fail(ServerError, s))
      && (avatar.NotMultipart? || avatar == AvatarFile(None) ==> r == Fail(BadRequest, s))
    ensures (&& !AnyBlank(f) && FindByIdentity(s.users, f.username, f.email).None?
             && avatar.AvatarFile? && avatar.url.Some? && r.reply.status != Created)
            ==> r == Fail(ServerError, s)
    ensures r.reply.status != Created ==> r.store == s && r.reply.data.None?
    ensures r.reply.status == Created <==>
      && !AnyBlank(f) && FindByIdentity(s.users, f.username, f.email).None?
      && f.fullName.Some? && f.email.Some? && f.username.Some? && f.password.Some?
      && avatar.AvatarFile? && avatar.url.Some? && avatar.url.value != ""
    ensures r.reply.status == Created ==>
      && |r.store.users| == |s.users| + 1
      && r.store == s.(users := s.users + [r.store.users[|s.users|]])
      && var u := r.store.users[|s.users|];
      && u.username == Normalize(f.username.value) && u.email == Normalize(f.email.value)
      && u.fullName == Trim(f.fullName.value) && u.avatar == avatar.url.value
      && u.coverImage == Some(coverImage.GetOr("")) && u.watchHistory == []
      && IsPasswordCorrect(env.prims, u, f.password.value)
      && u.refreshToken.None?
      && r.reply.data == Some(View(|s.users|, u, NoSecrets))
    ensures Valid(s) ==> Valid(r.store)
  {
    if AnyBlank(f) then Fail(BadRequest, s)
    else if FindByIdentity(s.users, f.username, f.email).Some? then Fail(Conflict, s)
    else match avatar
      case NotMultipart => Fail(BadRequest, s)
      case NoAvatarFile => Fail(ServerError, s)
      case AvatarFile(None) => Fail(BadRequest, s)
      case AvatarFile(Some(url)) =>
        if f.username.None? || f.email.None? || f.fullName.None? || f.password.None? || url == ""
        then Fail(ServerError, s)
        else
          var u := NewUser(env, f, url, coverImage, salt);
          NormalizeAfterLower(f.username.value);
          var s' := s.(users := s.users + [u]);
          RegisterKeepsValid(env, s, f, url, coverImage, salt);
          Step(Reply(Created, Some(View(|s.users|, u, NoSecrets))), s')
  }

  lemma RegisterKeepsValid(env: Env, s: Store, f: RegisterForm, avatar: string, coverImage: Option<string>,
                           salt: string)
    requires f.fullName.Some? && f.email.Some? && f.username.Some? && f.password.Some? && avatar != ""
    requires !AnyBlank(f) && FindByIdentity(s.users, f.username, f.email).None?
    ensures Valid(s) ==> Valid(s.(users := s.users + [NewUser(env, f, avatar, coverImage, salt)]))
  {
    if Valid(s) {
      var u := NewUser(env, f, avatar, coverImage, salt);
      var users := s.users + [u];
      NormalizeAfterLower(f.username.value);
      NormalizeIdempotent(f.username.value);
      NormalizeIdempotent(f.email.value);
      TrimIdempotent(f.fullName.value);
      assert WellFormed(u);
      assert FreshIdentity(s.users, -1, u) by {
        forall j | 0 <= j < |s.users|
          ensures s.users[j].username != u.username && s.users[j].email != u.email
        {
          assert !MatchesIdentity(s.users[j], f.username, f.email);
        }
      }
      AppendUserValid(s.users, u);
    }
  }

  datatype LoginForm = LoginForm(email: Option<string>, username: Option<string>, password: Option<string>)

  /** What a successful login returns: both tokens, also set as cookies, and the user without secrets. */
  datatype Session = Session(accessToken: string, refreshToken: string, user: UserView)

  /** `loginUser`. */
  function Login(env: Env, s: Store, f: LoginForm, now: nat): (r: Step<Session>)
    ensures !Truthy(f.email) && !Truthy(f.username) ==> r == Fail(BadRequest, s)
    ensures (Truthy(f.email) || Truthy(f.username)) && FindByIdentity(s.users, f.username, f.email).None?
            ==> r == Fail(NotFound, s)
    ensures (Truthy(f.email) || Truthy(f.username)) && FindByIdentity(s.users, f.username, f.email).Some?
            && f.password.Some?
            && !IsPasswordCorrect(env.prims, s.users[FindByIdentity(s.users, f.username, f.email).value], f.password.value)
            ==> r == Fail(Unauthorized, s)
    ensures r.reply.status != Ok ==> r.store == s && r.reply.data.None?
    ensures r.reply.status == Ok <==>
      && (Truthy(f.email) || Truthy(f.username))
      && FindByIdentity(s.users, f.username, f.email).Some?
      && f.password.Some?
      && IsPasswordCorrect(env.prims, s.users[FindByIdentity(s.users, f.username, f.email).value], f.password.value)
    ensures r.reply.status == Ok ==>
      var id := FindByIdentity(s.users, f.username, f.email).value;
      && r.reply.data.Some?
      && r.reply.data.value.refreshToken == GenerateRefreshToken(env, id, now)
      && r.reply.data.value.accessToken == GenerateAccessToken(env, id, s.users[id], now)
      && r.store == WithRefreshToken(s, id, Some(r.reply.data.value.refreshToken))
      && r.reply.data.value.user == View(id, r.store.users[id], NoSecrets)
    ensures Valid(s) ==> Valid(r.store)
  {
    if !Truthy(f.email) && !Truthy(f.username) then Fail(BadRequest, s)
    else match FindByIdentity(s.users, f.username, f.email)
      case None => Fail(NotFound, s)
      case Some(id) =>
        if f.password.None? then Fail(ServerError, s)
        else if !IsPasswordCorrect(env.prims, s.users[id], f.password.value) then Fail(Unauthorized, s)
        else
          var issued := GenerateTokens(env, s, id, now);
          var t := issued.reply.data.value;
          Step(Reply(Ok, Some(Session(t.accessToken, t.refreshToken, View(id, issued.store.users[id], NoSecrets)))),
               issued.store)
  }

  /** `logOutUser`: `$unset` the stored refresh token of the authenticated user. */
  function LogOut(s: Store, me: nat): (r: Step<()>)
    ensures r.reply == Reply(Ok, None)
    ensures me < |s.users| ==> r.store == WithRefreshToken(s, me, None)
    ensures me >= |s.users| ==> r.store == s
    ensures Valid(s) ==> Valid(r.store)
  {
    if me < |s.users| then
      WithRefreshTokenValid(s, me, None);
      Step(Reply(Ok, None), WithRefreshToken(s, me, None))
    else Step(Reply(Ok, None), s)
  }

  /** Where `refreshAccessToken` looks for the token: the `refreshToken` cookie, else the body. */
  datatype RefreshRequest = RefreshRequest(cookie: Option<string>, body: Option<string>)

  /** `req.cookies.refreshToken || req.body.refreshToken`. */
  function Presented(req: RefreshRequest): (r: Option<string>)
    ensures Truthy(req.cookie) ==> r == req.cookie
    ensures !Truthy(req.cookie) ==> r == req.body
    ensures Truthy(r) <==> Truthy(req.cookie) || Truthy(req.body)
  {
    if Truthy(req.cookie) then req.cookie else req.body
  }

  /**
   * `refreshAccessToken`. The presented token must verify with the refresh
   * secret and equal the token stored for the user it names; only then are
   * new tokens issued, overwriting the stored one. Every failure is a 401 and
   * leaves the store as it was.
   */
  function RefreshAccessToken(env: Env, s: Store, req: RefreshRequest, now: nat): (r: Step<Tokens>)
    ensures r.reply.status == Ok || r.reply.status == Unauthorized
    ensures r.reply.status == Unauthorized ==> r.store == s && r.reply.data.None?
    ensures !Truthy(Presented(req)) ==> r.reply.status == Unauthorized
    ensures r.reply.status == Ok <==>
      && Truthy(Presented(req))
      && var c := Verify(env.prims, Presented(req).value, env.refresh.secret, now);
      && c.Some? && c.value.id < |s.users|
      && s.users[c.value.id].refreshToken == Presented(req)
    ensures r.reply.status == Ok ==>
      var id := Verify(env.prims, Presented(req).value, env.refresh.secret, now).value.id;
      && r.reply.data.Some?
      && r.reply.data.value.refreshToken == GenerateRefreshToken(env, id, now)
      && r.reply.data.value.accessToken == GenerateAccessToken(env, id, s.users[id], now)
      && r.store == WithRefreshToken(s, id, Some(r.reply.data.value.refreshToken))
    ensures Valid(s) ==> Valid(r.store)
  {
    var incoming := Presented(req);
    if !Truthy(incoming) then Fail(Unauthorized, s)
    else match Verify(env.prims, incoming.value, env.refresh.secret, now)
      case None => Fail(Unauthorized, s)
      case Some(claims) =>
        if claims.id >= |s.users| then Fail(Unauthorized, s)
        else if incoming != s.users[claims.id].refreshToken then Fail(Unauthorized, s)
        else GenerateTokens(env, s, claims.id, now)
  }

  /**
   * `changeCurrentUserPassword`, behind `verifyJwtForUpdatingUserDetails`,
   * which guarantees that the user `me` exists.
   */
  function ChangeCurrentPassword(env: Env, s: Store, me: nat, oldPassword: Option<string>,
                                 newPassword: Option<string>, salt: string): (r: Step<()>)
    requires me < |s.users|
    ensures r.reply.status == Ok || r.reply.status == BadRequest
    ensures r.reply.status == Ok <==>
      Truthy(oldPassword) && Truthy(newPassword) && IsPasswordCorrect(env.prims, s.users[me], oldPassword.value)
    ensures r.reply.status == BadRequest ==> r.store == s
    ensures r.reply.status == Ok ==>
      && |r.store.users| == |s.users|
      && r.store == s.(users := s.users[me := r.store.users[me]])
      && r.store.users[me].(password := s.users[me].password) == s.users[me]
      && IsPasswordCorrect(env.prims, r.store.users[me], newPassword.value)
    ensures Valid(s) ==> Valid(r.store)
  {
    if !Truthy(oldPassword) || !Truthy(newPassword) then Fail(BadRequest, s)
    else if !IsPasswordCorrect(env.prims, s.users[me], oldPassword.value) then Fail(BadRequest, s)
    else
      var u := Save(env.prims, s.users[me], newPassword, salt);
      var s' := s.(users := s.users[me := u]);
      assert Valid(s) ==> Valid(s') by {
        if Valid(s) {
          SameIdentityValid(s.users, me, u);
        }
      }
      Step(Reply(Ok, None), s')
  }

  /** Another user already holds `email`, so the unique index rejects the update. */
  predicate EmailTaken(users: seq<User>, me: nat, email: string) {
    exists j :: 0 <= j < |users| && j != me && users[j].email == email
  }

  /**
   * `updateAccountDetails`. The update runs the schema's setters but not its
   * validators; the unique index on `email` rejects a duplicate, which the
   * handler reports as a server error.
   */
  function UpdateAccountDetails(s: Store, me: nat, fullName: Option<string>, email: Option<string>): (r: Step<UserView>)
    ensures !Truthy(fullName) || !Truthy(email) ==> r == Fail(BadRequest, s)
    ensures Truthy(fullName) && Truthy(email) && me >= |s.users| ==> r == Fail(NotFound, s)
    ensures Truthy(fullName) && Truthy(email) && me < |s.users| && EmailTaken(s.users, me, Normalize(email.value))
            ==> r == Fail(ServerError, s)
    ensures r.reply.status != Ok ==> r.store == s && r.reply.data.None?
    ensures r.reply.status == Ok <==>
      Truthy(fullName) && Truthy(email) && me < |s.users| && !EmailTaken(s.users, me, Normalize(email.value))
    ensures r.reply.status == Ok ==>
      && r.store == s.(users := s.users[me := s.users[me].(fullName := Trim(fullName.value),
                                                             email := Normalize(email.value))])
      && r.reply.data == Some(View(me, r.store.users[me], NoPassword))
    ensures Valid(s) ==> Valid(r.store)
  {
    if !Truthy(fullName) || !Truthy(email) then Fail(BadRequest, s)
    else if me >= |s.users| then Fail(NotFound, s)
    else
      var e := Normalize(email.value);
      if EmailTaken(s.users, me, e) then Fail(ServerError, s)
      else
        var u := s.users[me].(fullName := Trim(fullName.value), email := e);
        var s' := s.(users := s.users[me := u]);
        assert Valid(s) ==> Valid(s') by {
          if Valid(s) {
            NormalizeIdempotent(email.value);
            TrimIdempotent(fullName.value);
            assert WellFormed(s.users[me]);
            assert FreshIdentity(s.users, me, u) by {
              forall j | 0 <= j < |s.users| && j != me
                ensures s.users[j].username != u.username && s.users[j].email != u.email
              {
                if j < me {
                  assert s.users[j].username != s.users[me].username;
                } else {
                  assert s.users[me].username != s.users[j].username;
                }
              }
            }
            ReplaceUserValid(s.users, me, u);
          }
        }
        Step(Reply(Ok, Some(View(me, u, NoPassword))), s')
  }
}

=== FILE: user_model.dfy ===
/**
 * The user document (src/models/user.models.js): its fields, the schema's
 * normalisation of `username` and `email`, the pre-save hook that hashes a
 * modified password, `isPasswordCorrect`, the two token generators, and the
 * field projections the handlers select.
 */
module UserModel {
  import opened Wrappers
  import opened JsText
  import opened Crypto

  /**
   * A stored user. The password is only ever held as a bcrypt digest;
   * `coverImage` and `refreshToken` are the two optional fields.
   */
  datatype User = User(
    username: string,
    email: string,
    fullName: string,
    avatar: string,
    coverImage: Option<string>,
    watchHistory: seq<nat>,
    password: Digest,
    refreshToken: Option<string>)

  /**
   * What the schema's setters and the registration path guarantee of a stored
   * user: `username` and `email` lowercased and trimmed, `fullName` trimmed,
   * and the required `username` and `avatar` non-empty.
   */
  predicate WellFormed(u: User) {
    && Normalize(u.username) == u.username && u.username != ""
    && Normalize(u.email) == u.email
    && Trim(u.fullName) == u.fullName
    && u.avatar != ""
  }

  /** The unique indexes on `username` and `email`, over the users collection indexed by id. */
  ghost predicate UniqueIdentities(users: seq<User>) {
    forall i, j :: 0 <= i < j < |users| ==>
      users[i].username != users[j].username && users[i].email != users[j].email
  }

  ghost predicate AllWellFormed(users: seq<User>) {
    forall i :: 0 <= i < |users| ==> WellFormed(users[i])
  }

  ghost predicate UsersValid(users: seq<User>) {
    UniqueIdentities(users) && AllWellFormed(users)
  }

  /** `u` takes neither the username nor the email of any user other than the one at `except`. */
  ghost predicate FreshIdentity(users: seq<User>, except: int, u: User) {
    forall j :: 0 <= j < |users| && j != except ==> users[j].username != u.username && users[j].email != u.email
  }

  /** Replacing one user by a well-formed user that clashes with nobody else keeps the users valid. */
  lemma ReplaceUserValid(users: seq<User>, id: nat, u: User)
    requires UsersValid(users) && id < |users|
    requires WellFormed(u) && FreshIdentity(users, id, u)
    ensures UsersValid(users[id := u])
  {
    ReplaceWF(users, id, u);
    ReplaceUnique(users, id, u);
  }
  lemma ReplaceWF(users: seq<User>, id: nat, u: User)
    requires id < |users| && WellFormed(u) && AllWellFormed(users)
    ensures AllWellFormed(users[id := u])
  {
    var r := users[id := u];
    forall i | 0 <= i < |r| ensures WellFormed(r[i]) {
      if i != id {
        assert r[i] == users[i];
      }
    }
  }
  lemma ReplaceUnique(users: seq<User>, id: nat, u: User)
    requires id < |users| && UniqueIdentities(users) && FreshIdentity(users, id, u)
    ensures UniqueIdentities(users[id := u])
  {
    var r := users[id := u];
    forall i, j | 0 <= i < j < |r|
      ensures r[i].username != r[j].username && r[i].email != r[j].email
    {
      if i == id {
        assert r[j] == users[j];
      } else if j == id {
        assert r[i] == users[i];
      } else {
        assert r[i] == users[i] && r[j] == users[j];
      }
    }
  }

  /** Appending a well-formed user that clashes with nobody keeps the users valid. */
  lemma AppendUserValid(users: seq<User>, u: User)
    requires UsersValid(users)
    requires WellFormed(u) && FreshIdentity(users, -1, u)
    ensures UsersValid(users + [u])
  {
    AppendWF(users, u);
    AppendUnique(users, u);
  }
  lemma AppendWF(users: seq<User>, u: User)
    requires AllWellFormed(users) && WellFormed(u)
    ensures AllWellFormed(users + [u])
  {
    AllAppended(users, u, WellFormed);
  }

  /** A property of every element survives appending an element that has it. */
  lemma AllAppended<T>(xs: seq<T>, x: T, p: T -> bool)
    requires forall i :: 0 <= i < |xs| ==> p(xs[i])
    requires p(x)
    ensures forall i :: 0 <= i < |xs + [x]| ==> p((xs + [x])[i])
  {
  }
  lemma AppendUnique(users: seq<User>, u: User)
    requires UniqueIdentities(users)
    requires FreshIdentity(users, -1, u)
    ensures UniqueIdentities(users + [u])
  {
    var r := users + [u];
    forall i, j | 0 <= i < j < |r|
      ensures r[i].username != r[j].username && r[i].email != r[j].email
    {
      assert r[i] == users[i];
      if j < |users| {
        assert r[j] == users[j];
      } else {
        assert r[j] == u;
        assert users[i].username != u.username && users[i].email != u.email;
      }
    }
  }

  /** Changing neither the username nor the email of user `id` keeps the users valid. */
  lemma SameIdentityValid(users: seq<User>, id: nat, u: User)
    requires UsersValid(users) && id < |users|
    requires u.username == users[id].username && u.email == users[id].email
    requires u.fullName == users[id].fullName && u.avatar == users[id].avatar
    ensures UsersValid(users[id := u])
  {
    assert WellFormed(users[id]);
    assert FreshIdentity(users, id, u) by {
      forall j | 0 <= j < |users| && j != id
        ensures users[j].username != u.username && users[j].email != u.email
      {
        if j < id {
          assert users[j].username != users[id].username && users[j].email != users[id].email;
        } else {
          assert users[id].username != users[j].username && users[id].email != users[j].email;
        }
      }
    }
    ReplaceUserValid(users, id, u);
  }

  /**
   * `user.isPasswordCorrect(password)`: bcrypt comparison with the stored
   * digest. It holds exactly when deriving a key from `password` with the
   * digest's own cost and salt reproduces the stored value, so a digest
   * hashed from `password` always checks.
   */
  function IsPasswordCorrect(p: Primitives, u: User, password: string): (b: bool)
    ensures b <==> p.kdf(u.password.cost, u.password.salt, password) == u.password.value
    ensures u.password == Hash(p, password, u.password.salt) ==> b
  {
    Compare(p, password, u.password)
  }

  /**
   * `user.save()` with the pre-save hook. `newPassword` is `Some(p)` exactly
   * when the handler assigned the plain-text `p` to the password field, which
   * is what makes `isModified("password")` true; only then is a new digest
   * computed, with the freshly drawn `salt`.
   */
  function Save(p: Primitives, u: User, newPassword: Option<string>, salt: string): (r: User)
    ensures r.(password := u.password) == u
    ensures newPassword.None? ==> r.password == u.password
    ensures newPassword.Some? ==> IsPasswordCorrect(p, r, newPassword.value)
    ensures newPassword.Some? ==> r.password.cost == SaltRounds && r.password.salt == salt
  {
    match newPassword
    case None => u
    case Some(plain) => u.(password := Hash(p, plain, salt))
  }

  /** `user.generateAccessToken()`: the profile claims, signed with the access key. */
  function GenerateAccessToken(env: Env, id: nat, u: User, now: nat): (t: string)
    ensures JwtSound(env.prims) ==>
      Verify(env.prims, t, env.access.secret, now) == Some(AccessClaims(id, u.email, u.username, u.fullName))
  {
    env.prims.sign(AccessClaims(id, u.email, u.username, u.fullName), env.access, now)
  }

  /** `user.generateRefreshToken()`: only the id, signed with the separate refresh key. */
  function GenerateRefreshToken(env: Env, id: nat, now: nat): (t: string)
    ensures JwtSound(env.prims) ==> Verify(env.prims, t, env.refresh.secret, now) == Some(RefreshClaims(id))
  {
    env.prims.sign(RefreshClaims(id), env.refresh, now)
  }

  /**
   * The `select` strings the handlers use: `"-password -refreshToken"`,
   * `"-refreshToken"` and `"-password"`.
   */
  datatype Projection = NoSecrets | NoRefreshToken | NoPassword

  /** A user document as a handler sees it after a projection; a stripped field reads as `None`. */
  datatype UserView = UserView(
    id: nat,
    username: string,
    email: string,
    fullName: string,
    avatar: string,
    coverImage: Option<string>,
    watchHistory: seq<nat>,
    password: Option<Digest>,
    refreshToken: Option<string>)

  function View(id: nat, u: User, proj: Projection): (v: UserView)
    ensures v.id == id && v.username == u.username && v.email == u.email && v.fullName == u.fullName
    ensures v.avatar == u.avatar && v.coverImage == u.coverImage && v.watchHistory == u.watchHistory
    ensures v.password.Some? <==> proj == NoRefreshToken
    ensures v.password.Some? ==> v.password.value == u.password
    ensures proj != NoPassword ==> v.refreshToken.None?
    ensures proj == NoPassword ==> v.refreshToken == u.refreshToken
  {
    UserView(id, u.username, u.email, u.fullName, u.avatar, u.coverImage, u.watchHistory,
             if proj == NoRefreshToken then Some(u.password) else None,
             if proj == NoPassword then u.refreshToken else None)
  }
}

=== FILE: wrappers.dfy ===
/** The optional value shared by every module of the model. */
module Wrappers {

  /** `None` stands for JavaScript's `undefined`/`null`: a missing field, a query that found nothing. */
  datatype Option<+T> = None | Some(value: T) {

    function GetOr(default: T): T {
      match this
      case Some(v) => v
      case None => default
    }
  }
}
